=== FILE: README.md ===
# plvylist transport model

plvylist is an audio-playlist web component. It shows one track's metadata,
a seek slider, a transport row (previous, play/pause, next, shuffle, loop),
a volume slider with a mute button, and the track list. Clicking a row
selects a track. The repository holds the player several times over:
- a class-based custom element (`src/plvylist.js`);
- three closure-based copies (`demo/`, `docs/`, `dist/v3/`);
- a global-script player (`dist/v1/js/plvylist.js`);
- a partial Lit rewrite (`src/plvylist-player.js`) with its icon button
  (`src/subcomponents/button/plvy-button.js`).

This project models the state machine those copies share, as pure Dafny
functions over an immutable session record, and proves what the handlers
promise.

- **Wrappers** (`wrappers.dfy`): `Option` and `Result`. `None` stands for
  the `undefined` selection. A handler that throws a JavaScript TypeError
  returns `Err` with the fault: a missing track, a missing list row, or a
  NaN assigned to the element's `currentTime`.
- **Clock** (`clock.dfy`): the `MM:SS` formatter. It is `floor(t/60)` and
  `floor(t mod 60)`, each zero-padded to two characters. The module also
  has a parser, so the formatter has a round trip. Both padding styles
  (`padStart(2, "0")` and `n < 10 ? "0" + n : n`) are proved equal.
- **Catalog** (`catalog.dfy`): the track record, the Fisher–Yates shuffle and
  the `"--"`/placeholder metadata fallbacks. The shuffle is a functional
  definition plus the swap loop, run over a copy of the list and proved
  equal to it, and both are
  proved to produce a permutation. `Math.random` is a parameter
  `draw: nat -> Unit`, where `Unit` is a real in [0, 1).
- **Icons** (`icons.dfy`): the volume-icon tier, the Lit player's
  `volumeLevel` and the `plvy-button` icon choice.
- **Player** (`player.dfy`): the session record and one transition per
  handler. The media element is a set of fields: `play()` and `pause()`
  only set `paused`, and assigning `src` sets the source and forgets the
  duration, which stays unknown (NaN) until `loadedmetadata`. A `Variant`
  record collects the rules where the copies differ, with one constant
  per copy:
  - whether artist, title and album fall back to `"--"`;
  - whether the title is shown at all;
  - whether artwork falls back to the placeholder;
  - whether `loadCurrentTime` shows its argument;
  - `=== undefined` versus a falsy selection test;
  - whether `pressPlay` plays;
  - whether the transport buttons are wired at all;
  - how `loadstart` finds the row to highlight;
  - whether `emptied` is guarded.
- **Playback** (`playback.dfy`): events, runs of events, and the session
  invariant every handler keeps.
- **Findings** (`findings.dfy`): the discrepancies listed under Findings.
  Each is modelled as written and as evidently intended.

Times are non-negative reals, and an unknown duration is `None`. Volumes
are reals in [0, 1]. Absent optional track fields are the empty string,
which JavaScript treats as falsy just like `undefined`. A field that goes
through a `||` fallback is shown alike in both cases. Where a field is
assigned verbatim (every field in `dist/v1/js/plvylist.js`, the artwork in
`demo/`) or the fallback is itself missing (the placeholder attribute in
`dist/v3/`), the program shows the text "undefined" or "null" where the
model shows nothing; those cases are listed under Left out.

## Model

| member | source | states |
|---|---|---|
| Clock.Digits | src/plvylist.js:765-774 | the decimal text of a count is all digits, one character exactly below 10, at most two below 100, and starts with 0 only for 0 |
| Clock.ValueOfDigits | src/plvylist.js:765-774 | reading the decimal text of a count back gives the count |
| Clock.PadStart | src/plvylist.js:766-771 | padding reaches the width, keeps the text as a suffix and fills only with the fill character |
| Clock.PaddingStylesAgree | demo/plvylist-component.js:556-563 | the closure copies' `n < 10 ? "0" + n : n` gives the same text as the class-based `padStart(2, "0")` for every count |
| Clock.ValueOfPad2 | src/plvylist.js:766-771 | a padded field is all digits and reads back as the number it shows |
| Clock.Minutes | src/plvylist.js:766 | the minutes field is the whole minutes in t: 60·m ≤ t < 60·m + 60 |
| Clock.SecondsPart | src/plvylist.js:769 | the seconds field is below 60, and minutes·60 + seconds = floor(t) |
| Clock.TimeToString | src/plvylist.js:765-774 | the clock text is two digit fields, the seconds field exactly two long, joined by a colon; below 100 minutes it is exactly five characters |
| Clock.ClockRoundTrip | dist/v3/plvylist-component.js:213-220 | the clock text parses back to exactly floor(t/60) minutes and floor(t mod 60) seconds |
| Clock.NaNTextIsNoTime | src/plvylist.js:765-774 | the text a NaN time formats to, "NaN:NaN", is not clock text and parses as no time at all |
| Catalog.Pick | src/plvylist.js:829 | the swap partner of position i lies in [0, i] |
| Catalog.PickReachesAll | src/plvylist.js:829 | every position in [0, i] is the swap partner for some random draw |
| Catalog.Swap | src/plvylist.js:830-832 | the three assignments exchange positions i and j and change nothing else |
| Catalog.SwapDownPermutes | src/plvylist.js:828-833 | the swap loop keeps the length and the multiset of tracks, whatever the draws |
| Catalog.FisherYatesPermutes | dist/v3/plvylist-component.js:265-273 | the shuffle returns a permutation of the track list |
| Catalog.ShuffleTracks | demo/plvylist-component.js:610-618 | the swap loop computes the functional shuffle, and each exchange keeps the copy a permutation of its input |
| Catalog.ShownField | docs/plvylist-component.js:141-143 | a non-empty field is shown as is; with the fallback, an empty field shows `"--"` and never nothing; without it (v1), the field is shown verbatim |
| Catalog.ShownFieldSettles | docs/plvylist-component.js:141-143 | showing a shown field again changes nothing, and with the fallback the text is "--" if and only if the field is empty or is "--" |
| Catalog.ShownArtwork | docs/plvylist-component.js:144-147 | a track's own artwork wins; an empty one shows the placeholder where the copy falls back, and verbatim otherwise |
| Icons.SetVolumeIcon | docs/plvylist-component.js:247-255 | exactly one tier: off if and only if the volume is 0 or muted, low if and only if unmuted and in (0, 0.45], mid if and only if unmuted and above 0.45 |
| Icons.VolumeLevel | src/plvylist-player.js:104-110 | the level handed to the volume button is 0 when muted and the volume otherwise |
| Icons.SizingValue | src/subcomponents/button/plvy-button.js:37-39 | "34" if and only if the size is "large", "24" if and only if it is not |
| Icons.ButtonVolumeIcon | src/subcomponents/button/plvy-button.js:44-49 | off if and only if the value is 0, low if and only if non-zero and at most 0.45, mid if and only if above 0.45 |
| Icons.RenderIcon | src/subcomponents/button/plvy-button.js:41-53 | an action button shows the play icon exactly when `playing` is set; a volume button shows its value's tier; any other type shows the icon of that name, if there is one |
| Icons.RenderActionIcon | src/plvylist.js:708-720 | the earlier copies' convention: the pause icon exactly while playing, the glyph `pressPlay` and `pressPause` put on the button |
| Icons.ButtonAgreesWithSetVolumeIcon | src/plvylist-player.js:211-214 | the button's value-only tier, fed `volumeLevel`, equals the tier `setVolumeIcon` picks from volume and mute |
| Player.Init | src/plvylist.js:51-63 | nothing selected, override off, paused, unmuted, not looping, no source and no duration known; volume and position default to 0.5 and 0 and match their sliders; no row highlighted; the view starts with the play glyph, the mid speaker icon, the loop button inactive, "--" for artist, title, album and both times, and the placeholder as artwork |
| Player.PressPlay | docs/plvylist-component.js:175-186 | negates the override; where `pressPlay` plays, playing with the pause glyph; in the Lit copy, paused with the glyph untouched; selection, source, position and rows unchanged |
| Player.PressPause | src/plvylist.js:708-720 | paused with the play glyph, override negated, selection, source and rows unchanged |
| Player.LoadCurrentTime | demo/plvylist-component.js:566-575 | with no source nothing changes; otherwise only the elapsed-time text changes; a NaN time (from an unknown duration) shows "NaN:NaN" where the copy shows its argument; any other time shows `MM:SS` text that reads back as its minutes and seconds (of the element's own position in the class-based copy) |
| Player.LoadTrack | src/plvylist.js:690-705 | throws if and only if there is no track at the index; otherwise selects it, zeroes seeker and position, points the source at its file, forgets the duration until the next metadata, shows its metadata with the copy's fallbacks (no title in the Lit copy), shows "00:00" where it refreshes the time, and leaves play state, override, glyph, volume, mute, loop, speaker icon, duration text and rows unchanged |
| Player.ZeroShowsZero | src/plvylist.js:704 | position 0 is shown as "00:00" |
| Player.LoadKeepingPlayState | src/plvylist.js:728-733 | loads the index (selected, source at its file, position and seeker at 0, duration unknown), shows its metadata, and keeps the play state, the override, the glyph, the rows and every setting |
| Player.StopAndLoad | src/plvylist.js:734-738 | pauses with the play glyph, loads the index (source at its file, position and seeker at 0, duration unknown), shows its metadata, clears the override, and keeps the rows and every setting |
| Player.Previous | src/plvylist.js:723-739 | with no selection nothing changes; from i ≥ 1 loads and shows i−1 keeping play state, override and glyph; at 0 pauses with the play glyph, reloads and shows track 0 from the start and clears the override; every load points the source at the new file at position 0 with the duration unknown and leaves rows and settings alone; never selects a negative index |
| Player.Next | src/plvylist.js:742-758 | throws if and only if the list is empty; with no selection loads track 0 without playing; before the last track loads i+1 keeping play state, override and glyph; after the last pauses with the play glyph, wraps to 0 and clears the override; every load shows the new track's metadata, points the source at its file at position 0 with the duration unknown and leaves rows and settings alone |
| Player.Ended | src/plvylist.js:846-855 | nothing while looping; on the last track ends paused on track 0, loaded and shown from the start, with the override cleared; otherwise loads and shows the next track from the start and plays |
| Player.ActionClick | docs/plvylist-component.js:354-363 | with no selection loads and shows track 0 from the start and presses play (pause glyph and playing where `pressPlay` plays); otherwise presses play when paused, and runs `pressPause` when playing, which changes only the play state, glyph and override |
| Player.SongClick | demo/plvylist-component.js:490-502 | throws if and only if the row's index has no track; loads and shows it from the start with the duration unknown; with no selection (index 0 counts as none in the Lit copy) presses play, showing the pause glyph where that plays; when paused only loads; when playing keeps playing; glyph and override kept outside `pressPlay` |
| Player.SeekTarget | src/plvylist.js:875 | the slider's time is known if and only if the duration is (NaN otherwise), and a slider value of at most 100 stands for a time within the duration |
| Player.SeekerChange | docs/plvylist-component.js:330-337 | with no selection nothing changes; with a selection but no duration yet it throws, because the element refuses the NaN time; otherwise only the position, to value·duration/100, and the play state change, and the element resumes only when the override is set |
| Player.SeekerInput | docs/plvylist-component.js:340-348 | with no selection nothing changes; otherwise only the play state (paused) and the elapsed-time text change; a copy that shows its argument shows the dragged-to time, or "NaN:NaN" before the duration is known; the class-based copy shows the position; with no source the text stays |
| Player.ToggleVolume | dist/v1/js/plvylist.js:377-389 | negates mute and never changes the volume; muting shows the off icon and drops the slider to 0; unmuting restores the slider to the volume and re-picks the tier; nothing else changes |
| Player.VolumeInput | src/plvylist.js:918-920 | the element takes the slider's value; nothing else changes |
| Player.VolumeChange | src/plvylist.js:926 | the speaker icon follows the element's volume and mute; nothing else changes |
| Player.ToggleLoop | dist/v3/plvylist-component.js:259-262 | negates the loop flag and the button's active class together; nothing else changes |
| Player.LoadedMetadata | src/plvylist.js:777-779 | the element's duration becomes known, and the duration text parses back to its minutes and seconds; nothing else changes |
| Player.ShuffleClick | src/plvylist.js:904-915 | throws if and only if the list is empty; the new list is the Fisher–Yates shuffle, a permutation of the old; no row highlighted; track 0 of the new list loaded and shown from the start with the duration unknown; play state, override, glyph, volume, mute and loop kept |
| Player.FirstWithFile | dist/v3/plvylist-component.js:276-281 | the first track with the given file, or none if no track has it |
| Player.FirstActive | dist/v3/plvylist-component.js:311-315 | the first highlighted row, or none if no row is highlighted |
| Player.HighlightRow | src/plvylist.js:841-843 | by index, the selected row, and a fault if and only if there is none; by file, the first row whose file is the selected track's, never after the selection |
| Player.LoadStart | dist/v1/js/plvylist.js:409-415 | highlights exactly the row `HighlightRow` names, and throws if and only if it names none; the Lit copy does nothing |
| Player.Emptied | src/plvylist.js:864-868 | clears the first highlighted row; with none, the guarded copy does nothing and the unguarded copies throw, if and only if no row is highlighted |
| Playback.Apply | src/plvylist.js:923-939 | a row click runs the song-click rule; the Lit copy runs no other handler, so any other event has only the browser's own effect: a slider moves, `loadedmetadata` makes the duration known |
| Playback.InitValid | dist/v3/plvylist-component.js:90-91 | the initial session satisfies the invariant |
| Playback.ApplyPreservesValid | src/plvylist.js:923-939 | every handler that finishes keeps the invariant: the selection names a track, nothing plays unselected, one row per track, the loop class mirrors the loop flag, and where the volume slider has a handler it shows the volume unless muted |
| Playback.RunPreservesValid | src/plvylist.js:923-939 | any run of events that finishes keeps the invariant |
| Playback.SelectionPersists | dist/v3/plvylist-component.js:177-210 | once a track is selected, no handler goes back to "nothing selected" |
| Playback.ControlsNeverFault | dist/v3/plvylist-component.js:177-210 | on a valid session with tracks, no click, drag or `ended` throws, provided a seek is released only after the selected track's metadata arrived |
| Playback.NextThenSeekThrows | docs/plvylist-component.js:330-337 | after `nextTrack` the duration is unknown and a seek release throws; once `loadedmetadata` has arrived the same release finishes |
| Playback.LoadStartFindsRow | dist/v3/plvylist-component.js:276-281 | `loadstart` finds a row whenever a track is selected |
| Playback.HighlightFollowsSelection | dist/v3/plvylist-component.js:276-281 | `emptied` then `loadstart` leave exactly one highlighted row, the selected one, or the first with its file |
| Playback.ToggleLoopTwice | dist/v3/plvylist-component.js:259-262 | toggling loop twice restores the session |
| Playback.ToggleVolumeTwice | demo/plvylist-component.js:589-601 | mute and unmute restore the element, and the whole view when it was current |
| Playback.PressesCancel | docs/plvylist-component.js:175-186 | `pressPlay` and `pressPause` each negate the override, so together they leave it as it was |
| Playback.NextThenPrevious | src/plvylist.js:723-758 | next then previous inside the list returns to the same track, play state and override |
| Playback.PreviousThenNext | src/plvylist.js:723-758 | previous then next past the first track returns to the same track, play state and override |
| Playback.EndedIgnoresPriorPause | src/plvylist.js:846-855 | `ended` reaches the same selection, play state and override whether or not the element paused itself first |
| Playback.EndedStep | demo/plvylist-component.js:635-644 | one `ended` while playing without loop keeps the session valid and either moves to the next track still playing or, after the last, stops on track 0 with the override cleared |
| Playback.PlaysToTheEnd | demo/plvylist-component.js:635-644 | left playing, the player advances one track per `ended` and comes to rest paused on track 0 with the override cleared, without wrapping into a second pass |
| Findings.WithGuardedEmptied | src/plvylist.js:864-868 | an unguarded copy becomes the guarded one; every other copy, and every other rule, is unchanged |
| Findings.ClassBasedHidesPreview | src/plvylist.js:782-788 | as written, dragging to the middle of a two-minute track from 0 still shows "00:00"; the corrected copy shows one minute |
| Findings.DragShowsPreview | demo/plvylist-component.js:672-681 | a copy that honours the argument shows the dragged-to minutes and seconds once the duration is known, pauses, and leaves the position alone |
| Findings.LitTreatsTrackZeroAsUnselected | src/plvylist-player.js:129-139 | as written, a row click while track 0 plays pauses and flips the override |
| Findings.ClickWhilePlayingKeepsPlaying | demo/plvylist-component.js:490-502 | with a strict test, a row click while playing selects the row, keeps playing and keeps the override |
| Findings.LitFirstClickStaysSilent | src/plvylist-player.js:141-144 | as written, the first row click on a fresh Lit player leaves it paused |
| Findings.FirstClickPlays | docs/plvylist-component.js:159-171 | where `pressPlay` plays, the first row click starts that track and sets the override |
| Findings.LitArtworkIgnoresPlaceholder | src/plvylist-player.js:100-102 | as written, a track without artwork shows no image even with a placeholder configured |
| Findings.ArtworkFallsBackToPlaceholder | docs/plvylist-component.js:144-147 | with the fallback, missing artwork shows the placeholder and present artwork shows itself |
| Findings.LitShowsNoTitle | src/plvylist-player.js:169 | as written, the Lit template shows no title for any loaded track, whatever its title |
| Findings.TitleShown | src/plvylist-player.js:92-94 | where the title getter is read, a loaded track shows its own title, and "--" when it has none and the copy falls back |
| Findings.ShuffleThenEmptiedThrows | demo/plvylist-component.js:654-658 | as written, the unguarded `emptied` throws after a shuffle click, which leaves no row highlighted |
| Findings.GuardedEmptiedNeverThrows | src/plvylist.js:864-868 | with the guard, `emptied` never throws, and with no highlighted row it changes nothing |
| Icons.ActionIconInverted | src/subcomponents/button/plvy-button.js:42-43 | as written, the Lit action button shows the opposite of the glyph the earlier copies show for the same play state |
| Icons.RenderIconIntended | src/subcomponents/button/plvy-button.js:41-53 | the corrected button shows the earlier copies' action glyph and agrees with the button as written on every other type |
| Findings.IntendedIconMatchesGlyph | docs/plvylist-component.js:175-186 | the corrected button shows the glyph `pressPlay` or `pressPause` set |

## Left out

- Track loading over the network (`fetchTrackData`, `CreatePlvylist`, `_fetchFileData`, the `tracks` attribute) is I/O. The model takes the track list as given.
- Rendering and styling are not modelled: templates, SVG and icon markup, `innerHTML`, CSS custom properties such as `--val`, and `window.alert`. Icons are an enumeration, rows a sequence of "highlighted" flags, and the alert does nothing.
- The `timeupdate` handler is not modelled. Its `parseInt` percentage is NaN before metadata arrives, and it needs floating point the model does not have. The other effect of an unknown duration is modelled: the seek release throws and the drag preview shows "NaN:NaN".
- Media-element asynchrony is not modelled: the promise `play()` returns, buffering, and the order in which the element fires its events. Each event is one atomic transition, and a run is whatever order the caller supplies.
- Playback.Apply: the element's own pause just before `ended` is not applied. `Playback.EndedIgnoresPriorPause` shows that the handler's outcome is the same either way.
- URL resolution of `audio.src` is not modelled: the source is the track's file string as given.
- Player.LoadTrack: effects a throwing handler made before it threw are dropped, because `Err` carries no session. The class-based copy, for one, has already stored the new index when `tracks[index].file` throws.
- Player.SongClick: for the Lit copy it models `_handleSongClick` as if `_loadTrack` finished. That copy calls a `loadCurrentTime` method it does not define, and its template runs the handler at render time with a track object as the index. Both are Lit wiring faults.
- The Lit copy's other handlers (`_loadPreviousTrack`, `_handleActionButton`, `_loadNextTrack`, `_handleShuffle`, `_toggleLoop`, `_toggleVolume`) are not modelled because they are not defined, and its media listeners are empty. `Playback.Apply` gives those events only the browser's own effect: a dragged slider moves, and `loadedmetadata` makes the duration known.
- Player.Init: attribute text is not parsed. An absent `starting-volume`/`starting-time` is `None`, and a present one is its numeric value. The class-based copy stores the attribute text as given (src/plvylist.js:113-117) and assigns it at src/plvylist.js:680-683, so an empty `starting-volume` gives the element volume 0 while the range slider sanitises "" to its midpoint, and an empty `starting-time` gives position 0 with the seek slider at its midpoint. The model treats an empty attribute as absent, which is what the closure copies' `|| 0.5` and `|| 0` do. Range-input sanitisation is not modelled for any value: the seek slider (src/plvylist.js:344-349) has no `max`, so it clamps to 100 and rounds to its 0.01 step, and the volume slider (src/plvylist.js:359-364) rounds to 0.01 within [0, 1]. A `starting-time` of 120 therefore leaves the seek slider at 100 while the element is at 120 s, and a `starting-volume` of 0.755 leaves the volume slider at 0.76 while the element plays at 0.755. Init promises slider and element equal in both cases, and so `Playback.Valid` holds from the start in the model where it does not in the program. A `starting-volume` above 1 makes `audio.volume` throw in the program; the model's `Level` type admits only [0, 1], so that start is not represented.
- Catalog.ShownArtwork: the artwork and the placeholder are strings, never `null`. `demo/plvylist-component.js:478` assigns the artwork verbatim, and its track list takes `cover-art || placeholder-image` (demo/plvylist-component.js:22), which is `null` with both attributes absent, so the image source becomes the text "null". `dist/v3/plvylist-component.js:83` reads the placeholder with `getAttribute("placeholder")`, which is `null` when the attribute is absent, so the fallback at dist/v3/plvylist-component.js:132-135 gives "null" for a track without artwork. The model shows the empty string in both cases.
- Catalog.ShownField: a field that is absent from the track record, rather than empty, is not distinguished. `dist/v1/js/plvylist.js:263-266` assigns the fields to `innerHTML` verbatim, so an absent field shows the text "undefined" there, where the model shows nothing.
- Catalog.ShuffleTracks: only the permutation property is claimed. The uniformity of the random shuffle is a property of `Math.random`, which is a parameter here.
- The seek slider is not tied to playback progress, because that is the `timeupdate` handler. Its value is whatever the user last dragged it to.
- `dist/v1/js/plvylist.js` and the closure copies highlight rows with differently named CSS classes. The model does not distinguish class names.
- `lib/parse-readme.js`, build configuration, style sheets and `src/plvy-list.js` are not part of this model. The last has no transitions: its `renderTrackList` is an empty stub.

## Findings

| source | as written | input that shows it | evidently intended | confidence | as-written member | corrected member |
|---|---|---|---|---|---|---|
| src/plvylist.js:782-788 | `loadCurrentTime(time)` formats `audio.currentTime` and ignores `time`, so the seek drag's preview is computed and thrown away | a track of 120 s at position 0, seek slider dragged to 50: the text stays "00:00" | show the dragged-to time ("01:00"), as every closure copy does | high; not executed | Findings.ClassBasedHidesPreview | Findings.DragShowsPreview |
| src/plvylist-player.js:129-139 | `!this.currentTrack` is true for index 0, so track 0 counts as "nothing selected" | track 0 selected and playing, any row clicked: `_pressPlay` runs and flips the override instead of the track continuing. This assumes `_loadTrack` finishes; as written it throws at src/plvylist-player.js:126 on the undefined `loadCurrentTime`, and no Lit handler starts playback, so the state cannot be reached in the unmodified copy | `this.currentTrack === undefined`, as in every earlier copy | high; not executed | Findings.LitTreatsTrackZeroAsUnselected | Findings.ClickWhilePlayingKeepsPlaying |
| src/plvylist-player.js:141-144 | `_pressPlay` calls `pause()` | a fresh player, any row clicked: the track is loaded but stays paused. This assumes `_loadTrack` finishes; as written it throws at src/plvylist-player.js:126 on the undefined `loadCurrentTime` before `_pressPlay` is reached | call `play()`, as `pressPlay` does in every earlier copy | medium; not executed | Findings.LitFirstClickStaysSilent | Findings.FirstClickPlays |
| src/plvylist-player.js:169 | the template reads `this.currentTrackName`; the getter is `currentTrackTitle` (src/plvylist-player.js:92-94) | any track with a title, loaded and rendered: the title paragraph is empty. This assumes `_loadTrack` finishes, as the rows above do | read `currentTrackTitle`, as the artist and album lines read their getters | high; not executed | Findings.LitShowsNoTitle | Findings.TitleShown |
| src/plvylist-player.js:100-102 | the artwork fallback reads `this.placeholderArtwork`, which is never set; the constructor sets `this.placeholder` | a track with no artwork and a placeholder configured: no image | fall back to `this.placeholder` | high; not executed | Findings.LitArtworkIgnoresPlaceholder | Findings.ArtworkFallsBackToPlaceholder |
| demo/plvylist-component.js:654-658 | `emptied` calls `.classList` on the result of `querySelector` without a check | a track loaded, then the shuffle button: the rows are re-rendered unhighlighted, the reload empties the element, and the handler throws | guard the missing row, as `src/plvylist.js` does | medium; not executed | Findings.ShuffleThenEmptiedThrows | Findings.GuardedEmptiedNeverThrows |
| src/subcomponents/button/plvy-button.js:42-43 | the action button shows the play icon while `playing` is set | `playing` true: the play icon | the pause icon while playing, as every earlier copy shows after `pressPlay` | low; not executed | Icons.ActionIconInverted | Icons.RenderIconIntended |

=== FILE: catalog.dfy ===
/** The track list and the operations every copy performs on it: the
    Fisher–Yates shuffle and the metadata shown for a track.
 */
module Catalog {

  /** One playable item. Optional fields that are absent are the empty string:
      JavaScript treats `undefined` and `""` alike as falsy, and that is the
      only test the player applies to them. */
  datatype Track = Track(file: string, title: string, artist: string, album: string, artwork: string)

  /** The glyph every "--" fallback shows for missing metadata. */
  const EmptyMetadata: string := "--"

  /** A value `Math.random()` can return: at least 0 and below 1. */
  type Unit = r: real | 0.0 <= r < 1.0

  /** `Math.floor(Math.random() * (i + 1))`: the position swapped with position `i`. */
  function Pick(r: Unit, i: nat): (j: nat)
    ensures j <= i
  {
    assert r * (i + 1) as real < (i + 1) as real by {
      assert (1.0 - r) * (i + 1) as real > 0.0;
    }
    (r * (i + 1) as real).Floor
  }

  /** Every position from 0 to `i` is a possible pick, so no swap target is out of reach. */
  lemma PickReachesAll(i: nat, j: nat)
    requires j <= i
    ensures var r: Unit := j as real / (i + 1) as real; Pick(r, i) == j
  {
    var r: Unit := j as real / (i + 1) as real;
    assert r * (i + 1) as real == j as real;
  }

  /** The three assignments through `tempTracks` that exchange positions `i` and `j`. */
  function Swap<T>(a: seq<T>, i: nat, j: nat): (b: seq<T>)
    requires i < |a| && j < |a|
    ensures |b| == |a| && b[i] == a[j] && b[j] == a[i]
    ensures forall k :: 0 <= k < |a| && k != i && k != j ==> b[k] == a[k]
  {
    a[i := a[j]][j := a[i]]
  }

  lemma SwapPermutes<T>(a: seq<T>, i: nat, j: nat)
    requires i < |a| && j < |a|
    ensures multiset(Swap(a, i, j)) == multiset(a)
  {
    var b := a[i := a[j]];
    assert multiset(b) == multiset(a) - multiset{a[i]} + multiset{a[j]};
    assert multiset(b[j := a[i]]) == multiset(b) - multiset{b[j]} + multiset{a[i]};
  }

  /** The loop `for (i = length - 1; i > 0; i--)` from position `i` down: swaps
      `i` with `Pick(draw(i), i)`, then carries on with `i - 1`. */
  function SwapDown<T>(a: seq<T>, draw: nat -> Unit, i: int): seq<T>
    requires i < |a|
    decreases i
  {
    if i <= 0 then a else SwapDown(Swap(a, i, Pick(draw(i), i)), draw, i - 1)
  }

  /** `shuffleTracks`, with the random draw for position `i` supplied as `draw(i)`. */
  function FisherYates<T>(a: seq<T>, draw: nat -> Unit): seq<T> {
    SwapDown(a, draw, |a| - 1)
  }

  /** However the draws fall, the shuffle keeps every track exactly as often as before. */
  lemma {:induction false} SwapDownPermutes<T>(a: seq<T>, draw: nat -> Unit, i: int)
    requires i < |a|
    ensures |SwapDown(a, draw, i)| == |a|
    ensures multiset(SwapDown(a, draw, i)) == multiset(a)
    decreases i
  {
    if i > 0 {
      var b := Swap(a, i, Pick(draw(i), i));
      SwapPermutes(a, i, Pick(draw(i), i));
      SwapDownPermutes(b, draw, i - 1);
    }
  }

  lemma FisherYatesPermutes<T>(a: seq<T>, draw: nat -> Unit)
    ensures |FisherYates(a, draw)| == |a|
    ensures multiset(FisherYates(a, draw)) == multiset(a)
  {
    SwapDownPermutes(a, draw, |a| - 1);
  }

  /** The loop itself, on a copy of the list: it computes `FisherYates`,
      and every exchange keeps the copy a permutation of the input. */
  method ShuffleTracks<T>(tracks: seq<T>, draw: nat -> Unit) returns (r: seq<T>)
    ensures r == FisherYates(tracks, draw)
    ensures |r| == |tracks| && multiset(r) == multiset(tracks)
  {
    r := tracks;
    var i := |tracks| - 1;
    while i > 0
      invariant -1 <= i < |r| == |tracks|
      invariant SwapDown(r, draw, i) == FisherYates(tracks, draw)
      invariant multiset(r) == multiset(tracks)
      decreases i
    {
      var j := Pick(draw(i), i);
      SwapPermutes(r, i, j);
      r := Swap(r, i, j);
      i := i - 1;
    }
  }

  /** The artist, title and album getters: the field itself, or "--" when it is
      empty and the copy falls back. */
  function ShownField(fallback: bool, field: string): (shown: string)
    ensures field != "" ==> shown == field
    ensures fallback && field == "" ==> shown == EmptyMetadata
    ensures fallback ==> shown != ""
    ensures !fallback ==> shown == field
  {
    if fallback && field == "" then EmptyMetadata else field
  }

  /** A shown field is shown as itself again, and with the fallback the
      screen reads "--" exactly when the field is empty or is itself "--". */
  lemma ShownFieldSettles(fallback: bool, field: string)
    ensures ShownField(fallback, ShownField(fallback, field)) == ShownField(fallback, field)
    ensures fallback ==> (ShownField(fallback, field) == EmptyMetadata <==> field == "" || field == EmptyMetadata)
  {
  }

  /** The artwork source: the track's own artwork, or the placeholder image when
      it is empty and the copy falls back. */
  function ShownArtwork(fallback: bool, artwork: string, placeholder: string): (src: string)
    ensures artwork != "" ==> src == artwork
    ensures artwork == "" && fallback ==> src == placeholder
    ensures !fallback ==> src == artwork
  {
    if fallback && artwork == "" then placeholder else artwork
  }
}

=== FILE: clock.dfy ===
/** The `MM:SS` clock text shown for elapsed time and duration.

    Every copy of the player formats a time in seconds as `floor(t / 60)` and
    `floor(t % 60)`, each padded to two characters with a leading zero and
    joined by a colon. The class-based copy pads with `padStart(2, "0")`, the
    closure copies with `n < 10 ? "0" + n : n`; `PaddingStylesAgree` shows the
    two agree on every count of minutes or seconds.
 */
module Clock {
  import opened Wrappers

  /** A non-negative number of seconds; the media element never reports a negative time. */
  type Seconds = r: real | 0.0 <= r

  predicate IsDigit(c: char) {
    '0' <= c <= '9'
  }

  predicate AllDigits(s: string) {
    forall k :: 0 <= k < |s| ==> IsDigit(s[k])
  }

  function DigitChar(d: nat): (c: char)
    requires d < 10
    ensures IsDigit(c) && c as int - '0' as int == d
  {
    (d + '0' as int) as char
  }

  function DigitValue(c: char): (d: nat)
    requires IsDigit(c)
    ensures d < 10
  {
    c as int - '0' as int
  }

  /** Decimal text of a natural number, as `Number.prototype.toString()` writes it. */
  function Digits(n: nat): (s: string)
    ensures 1 <= |s| && AllDigits(s)
    ensures |s| == 1 <==> n < 10
    ensures n < 100 ==> |s| <= 2
    ensures s[0] == '0' ==> n == 0
    decreases n
  {
    if n < 10 then [DigitChar(n)] else Digits(n / 10) + [DigitChar(n % 10)]
  }

  /** Reads a digit string back as a number: the inverse of `Digits`. */
  function Value(s: string): nat
    requires AllDigits(s)
    decreases |s|
  {
    if |s| == 0 then 0 else Value(s[..|s| - 1]) * 10 + DigitValue(s[|s| - 1])
  }

  lemma {:induction false} ValueOfDigits(n: nat)
    ensures Value(Digits(n)) == n
    decreases n
  {
    if n >= 10 {
      var d := Digits(n);
      assert d[..|d| - 1] == Digits(n / 10);
      ValueOfDigits(n / 10);
    }
  }

  lemma {:induction false} LeadingZeroHasNoValue(s: string)
    requires AllDigits(s)
    ensures AllDigits("0" + s) && Value("0" + s) == Value(s)
    decreases |s|
  {
    var z := "0" + s;
    assert AllDigits(z) by {
      forall k | 0 <= k < |z| ensures IsDigit(z[k]) {
        if k > 0 {
          assert z[k] == s[k - 1];
        }
      }
    }
    if |s| > 0 {
      assert z[..|z| - 1] == "0" + s[..|s| - 1];
      LeadingZeroHasNoValue(s[..|s| - 1]);
    }
  }

  /** `String.prototype.padStart(width, fill)` for a one-character fill. */
  function PadStart(s: string, width: nat, fill: char): (r: string)
    ensures |r| == if |s| < width then width else |s|
    ensures r[|r| - |s|..] == s
    ensures forall k :: 0 <= k < |r| - |s| ==> r[k] == fill
    decreases width - |s|
  {
    if |s| >= width then s
    else
      var t := [fill] + s;
      var r := PadStart(t, width, fill);
      assert r[|r| - |s|..] == r[|r| - |t|..][1..];
      assert r[|r| - |t|] == t[0];
      r
  }

  /** The closure copies' padding: `n < 10 ? "0" + n : n`. */
  function LeadingZero(n: nat): string {
    if n < 10 then "0" + Digits(n) else Digits(n)
  }

  /** The class-based copy's `n.toString().padStart(2, "0")`. */
  function Pad2(n: nat): string {
    PadStart(Digits(n), 2, '0')
  }

  /** Both padding styles give the same text, so one formatter serves every copy. */
  lemma PaddingStylesAgree(n: nat)
    ensures Pad2(n) == LeadingZero(n)
  {
    var p := Pad2(n);
    var d := Digits(n);
    if n < 10 {
      assert p == p[..1] + p[1..];
      assert p[..1] == "0";
    }
  }

  /** A padded field is all digits, at least two long, and exactly two below 100. */
  lemma Pad2Shape(n: nat)
    ensures AllDigits(Pad2(n)) && 2 <= |Pad2(n)|
    ensures n < 100 ==> |Pad2(n)| == 2
  {
  }

  /** A padded field reads back as the number it shows. */
  lemma ValueOfPad2(n: nat)
    ensures AllDigits(Pad2(n)) && Value(Pad2(n)) == n
  {
    PaddingStylesAgree(n);
    ValueOfDigits(n);
    if n < 10 {
      LeadingZeroHasNoValue(Digits(n));
    }
  }

  /** `Math.floor(t / 60)`. */
  function Minutes(t: Seconds): (m: nat)
    ensures 60.0 * m as real <= t < 60.0 * m as real + 60.0
  {
    (t / 60.0).Floor
  }

  /** `Math.floor(t % 60)`; for a non-negative `t`, JavaScript's `%` is `t - 60 * floor(t / 60)`. */
  function SecondsPart(t: Seconds): (s: nat)
    ensures s < 60
    ensures Minutes(t) * 60 + s == t.Floor
  {
    (t - 60.0 * Minutes(t) as real).Floor
  }

  /** Two padded fields joined by a colon: where the colon sits and what surrounds it. */
  lemma JoinFields(a: string, b: string, r: string)
    requires 2 <= |a| && |b| == 2 && r == a + ":" + b
    ensures |r| == |a| + 3 && r[|a|] == ':'
    ensures r[..|a|] == a && r[|a| + 1..] == b
  {
    assert r[..|a|] == a;
    assert r[|a| + 1..] == b;
  }

  /** Clock text: at least five characters, all digits but for the colon
      third from the end. */
  predicate IsClockText(r: string) {
    && 5 <= |r| && r[|r| - 3] == ':'
    && forall k :: 0 <= k < |r| && k != |r| - 3 ==> IsDigit(r[k])
  }

  /** Two digit fields joined by a colon make clock text. */
  lemma JoinedShape(a: string, b: string)
    requires AllDigits(a) && AllDigits(b) && 2 <= |a| && |b| == 2
    ensures IsClockText(a + ":" + b)
  {
    var r := a + ":" + b;
    forall k | 0 <= k < |r| && k != |r| - 3 ensures IsDigit(r[k]) {
      if k < |a| {
        assert r[k] == a[k];
      } else {
        assert r[k] == b[k - |a| - 1];
      }
    }
  }

  /** `timeToString`, `loadDuration` and `loadCurrentTime`'s text: `MM:SS`. */
  function TimeToString(t: Seconds): (r: string)
    ensures IsClockText(r)
    ensures Minutes(t) < 100 ==> |r| == 5
  {
    var m, sec := Minutes(t), SecondsPart(t);
    Pad2Shape(m);
    Pad2Shape(sec);
    JoinedShape(Pad2(m), Pad2(sec));
    Pad2(m) + ":" + Pad2(sec)
  }

  /** Index of the first colon in `s`, if any. */
  function ColonIndex(s: string): (r: Option<nat>)
    ensures r.Some? ==> r.value < |s| && s[r.value] == ':'
    ensures r.Some? ==> forall k :: 0 <= k < r.value ==> s[k] != ':'
    ensures r.None? ==> forall k :: 0 <= k < |s| ==> s[k] != ':'
  {
    if |s| == 0 then None
    else if s[0] == ':' then Some(0)
    else match ColonIndex(s[1..])
      case None => None
      case Some(k) => Some(k + 1)
  }

  /** Reads clock text back into its minutes and seconds: the inverse of `TimeToString`. */
  function ParseClock(s: string): Option<(nat, nat)> {
    match ColonIndex(s)
    case None => None
    case Some(k) =>
      var mm := s[..k];
      var ss := s[k + 1..];
      if 2 <= |mm| && |ss| == 2 && AllDigits(mm) && AllDigits(ss)
      then Some((Value(mm), Value(ss)))
      else None
  }

  /** Two digit fields joined by a colon parse back into their values. */
  lemma ParseJoined(a: string, b: string)
    requires AllDigits(a) && AllDigits(b) && 2 <= |a| && |b| == 2
    ensures ParseClock(a + ":" + b) == Some((Value(a), Value(b)))
  {
    var r := a + ":" + b;
    JoinFields(a, b, r);
    forall k | 0 <= k < |a| ensures r[k] != ':' {
      assert r[k] == a[k];
    }
    assert ColonIndex(r) == Some(|a|);
  }

  /** The clock text of `t` reads back as `floor(t / 60)` minutes and `floor(t % 60)`
      seconds, the seconds are below 60, and together they make up `floor(t)`. */
  lemma ClockRoundTrip(t: Seconds)
    ensures ParseClock(TimeToString(t)) == Some((Minutes(t), SecondsPart(t)))
    ensures SecondsPart(t) < 60 && Minutes(t) * 60 + SecondsPart(t) == t.Floor
  {
    var m, s := Minutes(t), SecondsPart(t);
    Pad2Shape(m);
    Pad2Shape(s);
    ParseJoined(Pad2(m), Pad2(s));
    ValueOfPad2(m);
    ValueOfPad2(s);
  }

  /** What either formatter prints for NaN, the duration of an element whose
      metadata has not arrived: `Math.floor(NaN)` is NaN, and neither padding
      style touches the three-character "NaN". */
  const NaNText: string := "NaN:NaN"

  /** The NaN text is not clock text and does not read back as a time. */
  lemma NaNTextIsNoTime()
    ensures !IsClockText(NaNText) && ParseClock(NaNText) == None
  {
    assert !IsDigit(NaNText[0]);
    assert ColonIndex(NaNText) == Some(3);
    assert NaNText[..3] == "NaN";
  }
}

=== FILE: findings.dfy ===
/** Places where a copy of the player does something its own code evidently
    does not mean. Each is stated twice: a lemma about the rule as written that
    exhibits the discrepancy, and a lemma proving the intended behaviour of the
    corrected rule.
 */
module Findings {
  import opened Wrappers
  import opened Clock
  import opened Catalog
  import opened Icons
  import opened Player

  /** The class-based copy with `loadCurrentTime` formatting the time it is given. */
  const ClassBasedIntended: Variant := ClassBased.(previewShown := true)

  /** The Lit copy with a strict `=== undefined` selection test, a `_pressPlay`
      that plays, an artwork fallback that reads the component's own
      `placeholder` property, and a template that reads `currentTrackTitle`. */
  const LitPlayerIntended: Variant :=
    LitPlayer.(strictSelection := true, pressPlayStarts := true, artworkFallback := true, titleShown := true)

  /** A copy with the class-based copy's `if (activeSong)` guard in `emptied`. */
  function WithGuardedEmptied(v: Variant): (w: Variant)
    ensures w.emptied != Unguarded
    ensures v.emptied == Unguarded ==> w.emptied == Guarded
    ensures v.emptied != Unguarded ==> w == v
    ensures w == v.(emptied := w.emptied)
  {
    if v.emptied == Unguarded then v.(emptied := Guarded) else v
  }

  /** As written, the class-based seek drag shows the element's position, not
      the dragged-to time: dragging to the middle of a two-minute track from
      its start still reads "00:00", where the intended copy reads one minute. */
  lemma ClassBasedHidesPreview(s: Session)
    requires s.current.Some? && s.media.src != ""
    requires s.media.position == 0.0 && s.media.duration == Some(120.0) && s.view.seeker == 50.0
    ensures SeekTarget(s) == Some(60.0)
    ensures SeekerInput(ClassBased, s).view.currentTime == "00:00"
    ensures ParseClock(SeekerInput(ClassBasedIntended, s).view.currentTime) == Some((1, 0))
  {
    assert SeekTarget(s) == Some(60.0);
    assert Minutes(60.0) == 1 && SecondsPart(60.0) == 0;
    ZeroShowsZero();
    assert SeekerInput(ClassBased, s).view.currentTime == TimeToString(0.0);
    assert SeekerInput(ClassBasedIntended, s).view.currentTime == TimeToString(60.0);
    ClockRoundTrip(60.0);
  }

  /** With the argument honoured, a seek drag once the duration is known shows
      exactly the minutes and seconds of the dragged-to time, pauses, and
      leaves the position alone. */
  lemma DragShowsPreview(v: Variant, s: Session)
    requires v.previewShown && s.current.Some? && s.media.src != "" && s.media.duration.Some?
    ensures var r := SeekerInput(v, s); var t := SeekTarget(s).value;
      && ParseClock(r.view.currentTime) == Some((Minutes(t), SecondsPart(t)))
      && r.media.paused && r.media.position == s.media.position
  {
    ClockRoundTrip(SeekTarget(s).value);
  }

  /** As written, the Lit copy takes a selection of track 0 for no selection:
      clicking any row while track 0 plays runs `_pressPlay`, which stops
      playback and flips the override. */
  lemma LitTreatsTrackZeroAsUnselected(s: Session, i: nat)
    requires s.current == Some(0) && !s.media.paused && i < |s.tracks|
    ensures SongClick(LitPlayer, s, i).Ok?
    ensures SongClick(LitPlayer, s, i).value.media.paused
    ensures SongClick(LitPlayer, s, i).value.audioOverride == !s.audioOverride
  {
  }

  /** With a strict selection test, a click while anything plays loads the
      row and keeps playing, leaving the override alone, whichever track was
      selected. */
  lemma ClickWhilePlayingKeepsPlaying(v: Variant, s: Session, i: nat)
    requires v.strictSelection && s.current.Some? && !s.media.paused && i < |s.tracks|
    ensures SongClick(v, s, i).Ok?
    ensures !SongClick(v, s, i).value.media.paused
    ensures SongClick(v, s, i).value.current == Some(i)
    ensures SongClick(v, s, i).value.audioOverride == s.audioOverride
  {
  }

  /** As written, the Lit copy's `_pressPlay` pauses, so the first click on a
      row of a fresh player loads the track and leaves it silent. */
  lemma LitFirstClickStaysSilent(cfg: Config, tracks: seq<Track>, i: nat)
    requires i < |tracks|
    ensures SongClick(LitPlayer, Init(cfg, tracks), i).Ok?
    ensures SongClick(LitPlayer, Init(cfg, tracks), i).value.media.paused
  {
  }

  /** With a `_pressPlay` that plays, the first click on a row starts that
      track and sets the override. */
  lemma FirstClickPlays(v: Variant, cfg: Config, tracks: seq<Track>, i: nat)
    requires v.pressPlayStarts && i < |tracks|
    ensures SongClick(v, Init(cfg, tracks), i).Ok?
    ensures !SongClick(v, Init(cfg, tracks), i).value.media.paused
    ensures SongClick(v, Init(cfg, tracks), i).value.current == Some(i)
    ensures SongClick(v, Init(cfg, tracks), i).value.audioOverride
  {
  }

  /** As written, the Lit copy's artwork getter falls back to a property the
      component never sets, so a track without artwork shows no image even
      though a placeholder is configured. */
  lemma LitArtworkIgnoresPlaceholder(s: Session, i: nat)
    requires i < |s.tracks| && s.tracks[i].artwork == "" && s.placeholder != ""
    ensures LoadTrack(LitPlayer, s, i).Ok?
    ensures LoadTrack(LitPlayer, s, i).value.view.artwork == ""
  {
  }

  /** With the fallback reading the placeholder, a track without artwork shows
      the placeholder and a track with artwork shows its own. */
  lemma ArtworkFallsBackToPlaceholder(v: Variant, s: Session, i: nat)
    requires v.artworkFallback && i < |s.tracks|
    ensures LoadTrack(v, s, i).Ok?
    ensures s.tracks[i].artwork == "" ==> LoadTrack(v, s, i).value.view.artwork == s.placeholder
    ensures s.tracks[i].artwork != "" ==> LoadTrack(v, s, i).value.view.artwork == s.tracks[i].artwork
  {
  }

  /** As written, the Lit template reads `currentTrackName`, which the
      component does not define, so no track shows a title, whatever its
      title is. */
  lemma LitShowsNoTitle(s: Session, i: nat)
    requires i < |s.tracks|
    ensures LoadTrack(LitPlayer, s, i).Ok?
    ensures LoadTrack(LitPlayer, s, i).value.view.title == ""
  {
  }

  /** With the template reading the title getter, a loaded track shows its own
      title, or "--" when it has none and the copy falls back. */
  lemma TitleShown(v: Variant, s: Session, i: nat)
    requires v.titleShown && i < |s.tracks|
    ensures LoadTrack(v, s, i).Ok?
    ensures s.tracks[i].title != "" ==> LoadTrack(v, s, i).value.view.title == s.tracks[i].title
    ensures s.tracks[i].title == "" && v.metadataFallback ==>
      LoadTrack(v, s, i).value.view.title == EmptyMetadata
  {
  }

  /** As written, the closure copies' `emptied` handler assumes a highlighted
      row. The shuffle button re-renders the rows unhighlighted and then loads
      track 0; once a track had been loaded, that load empties the element,
      and the handler throws on the missing row. */
  lemma ShuffleThenEmptiedThrows(v: Variant, s: Session, draw: nat -> Unit)
    requires v.emptied == Unguarded && s.current.Some? && 0 < |s.tracks|
    ensures ShuffleClick(v, s, draw).Ok?
    ensures Emptied(v, ShuffleClick(v, s, draw).value) == Err(MissingRow)
  {
  }

  /** With the guard, `emptied` never throws: with no highlighted row it
      leaves the session alone, and otherwise it clears the first one. */
  lemma GuardedEmptiedNeverThrows(v: Variant, s: Session)
    ensures Emptied(WithGuardedEmptied(v), s).Ok?
    ensures FirstActive(s.view.rows).None? ==> Emptied(WithGuardedEmptied(v), s) == Ok(s)
  {
  }

  /** With the action branch of `_renderIcon` the other way round, the button
      shows the glyph the earlier copies put there after `pressPlay` and
      after `pressPause`. */
  lemma IntendedIconMatchesGlyph(v: Variant, s: Session, b: Button)
    requires v.pressPlayStarts && b.kind == "action"
    ensures var p := PressPlay(v, s);
      RenderIconIntended(b.(playing := !p.media.paused)) == Some(GlyphIcon(p.view.action))
    ensures var p := PressPause(s);
      RenderIconIntended(b.(playing := !p.media.paused)) == Some(GlyphIcon(p.view.action))
  {
  }
}

=== FILE: icons.dfy ===
/** Icon choices: the play/pause glyph on the primary button, the volume tier,
    and the Lit `plvy-button` component that picks its own icon from its
    properties. Icon markup is out of scope; icons are an enumeration.
 */
module Icons {
  import opened Wrappers

  /** A volume level as the media element accepts it: from 0 to 1. */
  type Level = r: real | 0.0 <= r <= 1.0

  /** The highest volume that still shows the "low" speaker. */
  const LowThreshold: real := 0.45

  /** The glyph shown on the primary action button. */
  datatype ActionGlyph = PlayGlyph | PauseGlyph

  /** The three speaker icons. */
  datatype VolumeTier = Off | Low | Mid

  /** Every icon the button component knows by name. */
  datatype Icon =
    | PlayIcon | PauseIcon | PreviousIcon | NextIcon | ShuffleIcon | LoopIcon
    | VolumeOffIcon | VolumeLowIcon | VolumeMidIcon

  /** `setVolumeIcon`: off when the volume is 0 or the element is muted, low up to
      0.45, mid above. */
  function SetVolumeIcon(volume: Level, muted: bool): (tier: VolumeTier)
    ensures tier == Off <==> volume == 0.0 || muted
    ensures tier == Low <==> !muted && 0.0 < volume <= LowThreshold
    ensures tier == Mid <==> !muted && LowThreshold < volume
  {
    if volume == 0.0 || muted then Off
    else if volume <= LowThreshold then Low
    else Mid
  }

  /** The Lit player's `volumeLevel`: what the volume button is told. */
  function VolumeLevel(muted: bool, volume: Level): (level: Level)
    ensures muted ==> level == 0.0
    ensures !muted ==> level == volume
  {
    if muted then 0.0 else volume
  }

  /** The button component's properties. */
  datatype Button = Button(playing: bool, kind: string, size: string, value: real, active: bool)

  /** The constructor's defaults. */
  const DefaultButton: Button := Button(false, "action", "standard", 0.5, false)

  /** `sizingValue`: 34 pixels for a large button, 24 for anything else. */
  function SizingValue(size: string): (px: string)
    ensures px == "34" <==> size == "large"
    ensures px == "24" <==> size != "large"
  {
    if size == "large" then "34" else "24"
  }

  /** `icons[name]`: the icon stored under `name`, or `undefined`. */
  function IconNamed(name: string): Option<Icon> {
    match name
    case "play" => Some(PlayIcon)
    case "pause" => Some(PauseIcon)
    case "previous" => Some(PreviousIcon)
    case "next" => Some(NextIcon)
    case "shuffle" => Some(ShuffleIcon)
    case "loop" => Some(LoopIcon)
    case "volumeOff" => Some(VolumeOffIcon)
    case "volumeLow" => Some(VolumeLowIcon)
    case "volumeMid" => Some(VolumeMidIcon)
    case _ => None
  }

  /** The volume button's tier: decided by the value alone, with no muted test. */
  function ButtonVolumeIcon(value: real): (icon: Icon)
    ensures icon == VolumeOffIcon <==> value == 0.0
    ensures icon == VolumeLowIcon <==> value != 0.0 && value <= LowThreshold
    ensures icon == VolumeMidIcon <==> LowThreshold < value
  {
    if value == 0.0 then VolumeOffIcon
    else if value <= LowThreshold then VolumeLowIcon
    else VolumeMidIcon
  }

  /** `_renderIcon`, as written: an action button shows the play icon while
      `playing` is set and the pause icon otherwise. */
  function RenderIcon(b: Button): (icon: Option<Icon>)
    ensures b.kind == "action" ==> icon.Some? && (icon.value == PlayIcon <==> b.playing)
    ensures b.kind == "volume" ==> icon == Some(ButtonVolumeIcon(b.value))
    ensures b.kind != "action" && b.kind != "volume" ==> icon == IconNamed(b.kind)
  {
    if b.kind == "action" then Some(if b.playing then PlayIcon else PauseIcon)
    else if b.kind == "volume" then Some(ButtonVolumeIcon(b.value))
    else IconNamed(b.kind)
  }

  /** The icon the player's own `pressPlay`/`pressPause` would put on the button. */
  function GlyphIcon(g: ActionGlyph): Icon {
    match g
    case PlayGlyph => PlayIcon
    case PauseGlyph => PauseIcon
  }

  /** The action icon with the older copies' convention: the pause icon while
      playing, so the button offers the action that is available. */
  function RenderActionIcon(playing: bool): (icon: Icon)
    ensures icon == PauseIcon <==> playing
    ensures icon == GlyphIcon(if playing then PauseGlyph else PlayGlyph)
  {
    if playing then PauseIcon else PlayIcon
  }

  /** The tier the volume button shows for the Lit player's `volumeLevel` is the
      tier `setVolumeIcon` picks from the volume and the muted flag, so the two
      generations agree although the button has no muted test of its own. */
  lemma ButtonAgreesWithSetVolumeIcon(volume: Level, muted: bool)
    ensures ButtonVolumeIcon(VolumeLevel(muted, volume)) == TierIcon(SetVolumeIcon(volume, muted))
  {
  }

  function TierIcon(t: VolumeTier): Icon {
    match t
    case Off => VolumeOffIcon
    case Low => VolumeLowIcon
    case Mid => VolumeMidIcon
  }

  /** `_renderIcon` with the action branch the other way round, matching the
      glyph every earlier copy shows. */
  function RenderIconIntended(b: Button): (icon: Option<Icon>)
    ensures b.kind == "action" ==> icon == Some(RenderActionIcon(b.playing))
    ensures b.kind != "action" ==> icon == RenderIcon(b)
  {
    if b.kind == "action" then Some(RenderActionIcon(b.playing)) else RenderIcon(b)
  }

  /** The as-written action icon is the opposite of the glyph every earlier copy
      shows for the same playing state. */
  lemma ActionIconInverted(b: Button)
    requires b.kind == "action"
    ensures RenderIcon(b) == Some(RenderActionIcon(!b.playing))
    ensures RenderIcon(b) != Some(RenderActionIcon(b.playing))
  {
  }
}

=== FILE: playback.dfy ===
/** Runs of user and media events over the session, and the invariants every
    copy of the player keeps along such a run.
 */
module Playback {
  import opened Wrappers
  import opened Clock
  import opened Catalog
  import opened Icons
  import opened Player

  /** What can happen to the component: a click or drag by the user, or an
      event the media element fires. A slider event carries the value the
      browser has just put into the slider. */
  datatype Event =
    | SongClicked(index: nat)
    | ActionClicked
    | PreviousClicked
    | NextClicked
    | SeekReleased(seekValue: Seconds)
    | SeekDragged(seekValue: Seconds)
    | VolumeClicked
    | VolumeDragged(level: Level)
    | LoopClicked
    | ShuffleClicked(draw: nat -> Unit)
    | MediaEnded
    | MediaLoadStart
    | MediaEmptied
    | MediaVolumeChanged
    | MetadataLoaded(duration: Seconds)

  /** What the browser does with an event before any handler sees it: a
      slider takes the value it was dragged to, and `loadedmetadata` comes
      with the element's duration. Nothing else changes. */
  function Arrive(s: Session, e: Event): (r: Session)
    ensures e.SeekReleased? || e.SeekDragged? ==> r == s.(view := s.view.(seeker := e.seekValue))
    ensures e.VolumeDragged? ==> r == s.(view := s.view.(volumeSlider := e.level))
    ensures e.MetadataLoaded? ==> r == s.(media := s.media.(duration := Some(e.duration)))
    ensures !e.SeekReleased? && !e.SeekDragged? && !e.VolumeDragged? && !e.MetadataLoaded? ==> r == s
  {
    match e
    case SeekReleased(x) => s.(view := s.view.(seeker := x))
    case SeekDragged(x) => s.(view := s.view.(seeker := x))
    case VolumeDragged(x) => s.(view := s.view.(volumeSlider := x))
    case MetadataLoaded(d) => s.(media := s.media.(duration := Some(d)))
    case _ => s
  }

  /** One event and the handler it runs. The Lit copy wires only the song
      rows, so every other event does only what the browser does with it. */
  function Apply(v: Variant, s: Session, e: Event): (r: Result<Session>)
    ensures !v.hasTransport && !e.SongClicked? ==> r == Ok(Arrive(s, e))
    ensures e.SongClicked? ==> r == SongClick(v, s, e.index)
  {
    var a := Arrive(s, e);
    if !v.hasTransport && !e.SongClicked? then Ok(a)
    else match e
      case SongClicked(i) => SongClick(v, s, i)
      case ActionClicked => ActionClick(v, s)
      case PreviousClicked => Previous(v, s)
      case NextClicked => Next(v, s)
      case SeekReleased(_) => SeekerChange(v, a)
      case SeekDragged(_) => Ok(SeekerInput(v, a))
      case VolumeClicked => Ok(ToggleVolume(s))
      case VolumeDragged(_) => Ok(VolumeInput(a))
      case LoopClicked => Ok(ToggleLoop(s))
      case ShuffleClicked(draw) => ShuffleClick(v, s, draw)
      case MediaEnded => Ended(v, s)
      case MediaLoadStart => LoadStart(v, s)
      case MediaEmptied => Emptied(v, s)
      case MediaVolumeChanged => Ok(VolumeChange(s))
      case MetadataLoaded(d) => Ok(LoadedMetadata(a, d))
  }

  /** A sequence of events, stopping at the first handler that throws. */
  function Run(v: Variant, s: Session, events: seq<Event>): Result<Session>
    decreases |events|
  {
    if |events| == 0 then Ok(s)
    else
      var next :- Apply(v, s, events[0]);
      Run(v, next, events[1..])
  }

  /** A run that gets past its first event carries on from where that event left the session. */
  lemma RunFirst(v: Variant, s: Session, events: seq<Event>)
    requires 0 < |events| && Apply(v, s, events[0]).Ok?
    ensures Run(v, s, events) == Run(v, Apply(v, s, events[0]).value, events[1..])
  {
  }

  /** The session invariant: the selection names a track, nothing plays
      without a selection, one row per track, the loop button's class mirrors
      the loop flag and, in a copy whose volume slider has a handler, the
      slider shows the volume unless muted. The Lit copy's slider has none:
      dragging it moves the slider and leaves the volume where it was. */
  predicate Valid(v: Variant, s: Session) {
    && (s.current.Some? ==> s.current.value < |s.tracks|)
    && (!s.media.paused ==> s.current.Some?)
    && |s.view.rows| == |s.tracks|
    && (v.hasTransport && !s.media.muted ==> s.view.volumeSlider == s.media.volume)
    && s.view.loopActive == s.media.loop
  }

  lemma InitValid(v: Variant, cfg: Config, tracks: seq<Track>)
    ensures Valid(v, Init(cfg, tracks))
  {
  }

  /** Every handler that finishes leaves a valid session valid. */
  lemma ApplyPreservesValid(v: Variant, s: Session, e: Event)
    requires Valid(v, s)
    ensures Apply(v, s, e).Ok? ==> Valid(v, Apply(v, s, e).value)
  {
  }

  /** A whole run that finishes ends in a valid session. */
  lemma {:induction false} RunPreservesValid(v: Variant, s: Session, events: seq<Event>)
    requires Valid(v, s)
    ensures Run(v, s, events).Ok? ==> Valid(v, Run(v, s, events).value)
    decreases |events|
  {
    if |events| > 0 {
      ApplyPreservesValid(v, s, events[0]);
      var r := Apply(v, s, events[0]);
      if r.Ok? {
        RunPreservesValid(v, r.value, events[1..]);
      }
    }
  }

  /** Once a track is selected, no handler that finishes goes back to "nothing selected". */
  lemma SelectionPersists(v: Variant, s: Session, e: Event)
    requires s.current.Some?
    ensures Apply(v, s, e).Ok? ==> Apply(v, s, e).value.current.Some?
  {
  }

  /** On a valid session with at least one track, no control throws: clicks on
      rows that exist, the buttons and the sliders, and `ended`, as long as a
      seek is released only once the selected track's metadata has arrived. */
  lemma ControlsNeverFault(v: Variant, s: Session, e: Event)
    requires Valid(v, s) && 0 < |s.tracks|
    requires e.SongClicked? ==> e.index < |s.tracks|
    requires e.SeekReleased? && s.current.Some? ==> s.media.duration.Some?
    requires !e.MediaLoadStart? && !e.MediaEmptied?
    ensures Apply(v, s, e).Ok?
  {
  }

  /** Every track load forgets the duration, and only `loadedmetadata` brings
      it back: after `nextTrack` a seek release throws, because
      `value * NaN / 100` is NaN and the element refuses it, and once the
      metadata has arrived the same release finishes. */
  lemma NextThenSeekThrows(v: Variant, s: Session, d: Seconds)
    requires 0 < |s.tracks|
    ensures Next(v, s).Ok?
    ensures SeekerChange(v, Next(v, s).value) == Err(NonFiniteTime)
    ensures SeekerChange(v, LoadedMetadata(Next(v, s).value, d)).Ok?
  {
    var n := Next(v, s).value;
    assert n.current.Some? && n.media.duration.None?;
    var m := LoadedMetadata(n, d);
    assert m.current.Some? && m.media.duration.Some?;
  }

  /** `loadstart` finds a row to highlight whenever a track is selected. */
  lemma LoadStartFindsRow(v: Variant, s: Session)
    requires Valid(v, s) && s.current.Some?
    ensures LoadStart(v, s).Ok?
  {
    if v.highlight == ByFile {
      var c := s.current.value;
      assert FirstWithFile(s.tracks, s.tracks[c].file).Some?;
    }
  }

  /** No row has the active class. */
  predicate NoneActive(rows: seq<bool>) {
    forall k :: 0 <= k < |rows| ==> !rows[k]
  }

  /** At most one row has the active class. */
  predicate AtMostOneActive(rows: seq<bool>) {
    forall i, j :: 0 <= i < |rows| && 0 <= j < |rows| && rows[i] && rows[j] ==> i == j
  }

  /** Row `k` and no other has the active class. */
  predicate OnlyActive(rows: seq<bool>, k: nat) {
    k < |rows| && forall i :: 0 <= i < |rows| ==> (rows[i] <==> i == k)
  }

  /** A track change fires `emptied` and then `loadstart`: when at most one row
      was highlighted before, exactly one is afterwards, and it is the row the
      selection names: the selected index, or the first row with the
      selected track's file. */
  lemma HighlightFollowsSelection(v: Variant, s: Session)
    requires v.highlight != NoHighlight && v.emptied != Ignored
    requires AtMostOneActive(s.view.rows)
    requires Emptied(v, s).Ok? && LoadStart(v, Emptied(v, s).value).Ok?
    ensures var e := Emptied(v, s).value;
      && NoneActive(e.view.rows)
      && OnlyActive(LoadStart(v, e).value.view.rows, HighlightRow(v, e).value)
    ensures var e := Emptied(v, s).value;
      && (v.highlight == ByIndex ==> s.current == Some(HighlightRow(v, e).value))
      && (v.highlight == ByFile ==> s.tracks[HighlightRow(v, e).value].file == s.tracks[s.current.value].file)
  {
    var e := Emptied(v, s).value;
    var rows := s.view.rows;
    match FirstActive(rows)
    case None =>
    case Some(a) =>
      assert e.view.rows == rows[a := false];
      forall k | 0 <= k < |rows| ensures !e.view.rows[k] {
        assert rows[k] && rows[a] ==> k == a;
      }
    var k := HighlightRow(v, e).value;
    assert LoadStart(v, e).value.view.rows == e.view.rows[k := true];
  }

  /** `toggleLoop` twice restores the loop flag and the button's class. */
  lemma ToggleLoopTwice(s: Session)
    ensures ToggleLoop(ToggleLoop(s)) == s
  {
  }

  /** Muting and unmuting restores the element and, when the session was
      valid and the speaker icon current, the whole view. */
  lemma ToggleVolumeTwice(s: Session)
    ensures ToggleVolume(ToggleVolume(s)).media == s.media
    ensures (s.view.volumeSlider == s.media.volume && !s.media.muted
             && s.view.volumeIcon == SetVolumeIcon(s.media.volume, false)) ==>
      ToggleVolume(ToggleVolume(s)) == s
  {
  }

  /** `pressPlay` and `pressPause` each negate the override, so the two in
      either order leave it as it was. */
  lemma PressesCancel(v: Variant, s: Session)
    ensures PressPause(PressPlay(v, s)).audioOverride == s.audioOverride
    ensures PressPlay(v, PressPause(s)).audioOverride == s.audioOverride
    ensures PressPause(PressPlay(v, s)).media.paused
  {
  }

  /** `nextTrack` and then `previousTrack` inside the list return to the same
      track in the same play state. */
  lemma NextThenPrevious(v: Variant, s: Session)
    requires s.current.Some? && s.current.value + 1 < |s.tracks|
    ensures Next(v, s).Ok? && Previous(v, Next(v, s).value).Ok?
    ensures Previous(v, Next(v, s).value).value.current == s.current
    ensures Previous(v, Next(v, s).value).value.media.paused == s.media.paused
    ensures Previous(v, Next(v, s).value).value.audioOverride == s.audioOverride
  {
  }

  /** `previousTrack` and then `nextTrack` past the first track return to the
      same track in the same play state. */
  lemma PreviousThenNext(v: Variant, s: Session)
    requires s.current.Some? && 1 <= s.current.value < |s.tracks|
    ensures Previous(v, s).Ok? && Next(v, Previous(v, s).value).Ok?
    ensures Next(v, Previous(v, s).value).value.current == s.current
    ensures Next(v, Previous(v, s).value).value.media.paused == s.media.paused
    ensures Next(v, Previous(v, s).value).value.audioOverride == s.audioOverride
  {
  }

  /** The media element pauses itself just before it fires `ended`; the handler
      reaches the same selection, play state and override either way, so the
      model applies it to the session as it stands. */
  lemma EndedIgnoresPriorPause(v: Variant, s: Session)
    ensures Ended(v, s).Ok? <==> Ended(v, Pause(s)).Ok?
    ensures Ended(v, s).Ok? ==>
      && Ended(v, s).value.current == Ended(v, Pause(s)).value.current
      && Ended(v, s).value.audioOverride == Ended(v, Pause(s)).value.audioOverride
      && (!s.media.loop ==> Ended(v, s).value.media.paused == Ended(v, Pause(s)).value.media.paused)
  {
  }

  /** One `ended` while playing without looping: the run goes on to the next
      track still playing, or, after the last, stops on the first. */
  lemma EndedStep(v: Variant, s: Session)
    requires v.hasTransport && Valid(v, s) && s.current.Some? && !s.media.paused && !s.media.loop
    ensures Apply(v, s, MediaEnded) == Ended(v, s) && Ended(v, s).Ok?
    ensures var r := Ended(v, s).value;
      && Valid(v, r) && !r.media.loop && r.tracks == s.tracks
      && (s.current.value + 1 == |s.tracks| ==>
            r.current == Some(0) && r.media.paused && !r.audioOverride)
      && (s.current.value + 1 < |s.tracks| ==>
            r.current == Some(s.current.value + 1) && !r.media.paused)
  {
    ApplyPreservesValid(v, s, MediaEnded);
  }

  /** Left playing, the player works through the rest of the list one `ended`
      at a time and comes to rest paused on the first track with the override
      cleared; it never wraps round into a second pass. */
  lemma {:induction false} PlaysToTheEnd(v: Variant, s: Session, events: seq<Event>)
    requires v.hasTransport && Valid(v, s) && s.current.Some? && !s.media.paused && !s.media.loop
    requires |events| == |s.tracks| - s.current.value
    requires forall k :: 0 <= k < |events| ==> events[k] == MediaEnded
    ensures var r := Run(v, s, events);
      && r.Ok? && r.value.current == Some(0) && r.value.media.paused && !r.value.audioOverride
    decreases |events|
  {
    EndedStep(v, s);
    var next := Ended(v, s).value;
    RunFirst(v, s, events);
    if |events| == 1 {
      assert events[1..] == [];
    } else {
      PlaysToTheEnd(v, next, events[1..]);
    }
  }
}

=== FILE: player.dfy ===
/** The playlist transport state machine shared by every copy of the player.

    The state is one immutable record: the track list, the selected index
    (`None` until a track is first loaded, distinct from index 0), the
    `audioOverride` flag, the media element's own fields and what the view
    shows. Each handler is a pure transition on that record. The media element
    is its fields: `play()` and `pause()` only set `paused`, and assigning
    `src` sets the source and forgets the duration. A handler that throws a TypeError in JavaScript
    returns `Err`; one that `return false`s returns the state unchanged.

    The copies differ in a handful of rules, collected in `Variant`, with one
    constant per copy.
 */
module Player {
  import opened Wrappers
  import opened Clock
  import opened Catalog
  import opened Icons

  /** How the `loadstart` handler finds the row to highlight. */
  datatype Highlight =
    | NoHighlight  // no `loadstart` handler
    | ByIndex      // `[data-track="<currentTrackIndex>"]`
    | ByFile       // `[data-file="<tracks[currentTrack].file>"]`, the first such row

  /** What the `emptied` handler does when no row is highlighted. */
  datatype EmptiedRule =
    | Ignored    // no `emptied` handler
    | Guarded    // `if (activeSong)`: nothing to do
    | Unguarded  // `.classList` on `null`: TypeError

  /** The rules in which the copies of the player differ. */
  datatype Variant = Variant(
    metadataFallback: bool,  // artist, title and album show "--" when empty
    titleShown: bool,        // the template shows the title getter it defines
    artworkFallback: bool,   // artwork shows the placeholder when empty
    previewShown: bool,      // `loadCurrentTime(time)` formats `time`, not `audio.currentTime`
    loadShowsTime: bool,     // `loadTrack` refreshes the elapsed-time text
    strictSelection: bool,   // a song click tests `=== undefined`, not falsiness
    pressPlayStarts: bool,   // `pressPlay` calls `play()` and shows the pause glyph
    hasTransport: bool,      // previous/next/action/seek/shuffle/loop/volume handlers are wired
    highlight: Highlight,
    emptied: EmptiedRule)

  /** src/plvylist.js: the class-based custom element. */
  const ClassBased: Variant := Variant(true, true, true, false, true, true, true, true, ByIndex, Guarded)
  /** demo/plvylist-component.js: closures over a built-in track list. */
  const Demo: Variant := Variant(true, true, false, true, true, true, true, true, ByFile, Unguarded)
  /** docs/plvylist-component.js: closures inside `CreatePlvylist`. */
  const Docs: Variant := Variant(true, true, true, true, true, true, true, true, ByFile, Unguarded)
  /** dist/v3/plvylist-component.js: the same closures as the docs copy. */
  const V3: Variant := Variant(true, true, true, true, true, true, true, true, ByFile, Unguarded)
  /** dist/v1/js/plvylist.js: the global-script player with a `settings` object. */
  const V1: Variant := Variant(false, true, false, true, true, true, true, true, ByFile, Unguarded)
  /** src/plvylist-player.js: the partial Lit rewrite. Only `_loadTrack`,
      `_handleSongClick` and `_pressPlay` exist; the other buttons are bound to
      methods it does not define, and its media listeners are empty. Its
      template reads a `currentTrackName` it does not define, so no title shows. */
  const LitPlayer: Variant := Variant(true, false, false, true, false, false, false, false, NoHighlight, Ignored)

  /** The media element's state. */
  datatype Media = Media(
    src: string,
    paused: bool,
    position: Seconds,   // `currentTime`
    duration: Option<Seconds>,  // `None` is NaN: no metadata since the source was last set
    volume: Level,
    muted: bool,
    loop: bool)

  /** What the component shows. */
  datatype View = View(
    seeker: Seconds,        // the seek slider's value
    volumeSlider: Level,    // the volume slider's value
    action: ActionGlyph,    // glyph on the primary button
    volumeIcon: VolumeTier,
    loopActive: bool,       // `loop--active` class on the loop button
    artist: string,
    title: string,
    album: string,
    artwork: string,
    currentTime: string,
    duration: string,
    rows: seq<bool>)        // per track-list row: has the active class

  datatype Session = Session(
    tracks: seq<Track>,
    placeholder: string,
    current: Option<nat>,
    audioOverride: bool,
    media: Media,
    view: View)

  /** The component's attributes. */
  datatype Config = Config(placeholder: string, startingVolume: Option<Level>, startingTime: Option<Seconds>)

  const DefaultVolume: Level := 0.5
  const DefaultTime: Seconds := 0.0

  /** The state right after the component connects: nothing selected, paused,
      override off, the starting volume and time (0.5 and 0 when the attributes
      are absent) in both the sliders and the media element, every row plain. */
  function Init(cfg: Config, tracks: seq<Track>): (s: Session)
    ensures s.tracks == tracks && s.current.None? && !s.audioOverride
    ensures s.media.paused && !s.media.muted && !s.media.loop && s.media.src == ""
    ensures s.media.duration.None?
    ensures s.media.volume == s.view.volumeSlider
    ensures s.media.volume == (if cfg.startingVolume.Some? then cfg.startingVolume.value else 0.5)
    ensures s.media.position == s.view.seeker
    ensures s.media.position == (if cfg.startingTime.Some? then cfg.startingTime.value else 0.0)
    ensures |s.view.rows| == |tracks| && forall k :: 0 <= k < |tracks| ==> !s.view.rows[k]
    ensures s.placeholder == cfg.placeholder && s.view.artwork == cfg.placeholder
    ensures s.view.action == PlayGlyph && s.view.volumeIcon == Mid && !s.view.loopActive
    ensures s.view.artist == EmptyMetadata && s.view.title == EmptyMetadata && s.view.album == EmptyMetadata
    ensures s.view.currentTime == EmptyMetadata && s.view.duration == EmptyMetadata
  {
    var volume := match cfg.startingVolume case Some(v) => v case None => DefaultVolume;
    var time := match cfg.startingTime case Some(t) => t case None => DefaultTime;
    Session(
      tracks, cfg.placeholder, None, false,
      Media("", true, time, None, volume, false, false),
      View(time, volume, PlayGlyph, Mid, false, EmptyMetadata, EmptyMetadata, EmptyMetadata,
           cfg.placeholder, EmptyMetadata, EmptyMetadata, seq(|tracks|, _ => false)))
  }

  /** The session fields a track change leaves alone: the list, the override,
      the play state, loop, mute, volume and the controls showing them. */
  predicate SameControls(s: Session, r: Session) {
    && r.tracks == s.tracks
    && r.placeholder == s.placeholder
    && r.audioOverride == s.audioOverride
    && r.media.paused == s.media.paused
    && r.media.loop == s.media.loop
    && r.media.muted == s.media.muted
    && r.media.volume == s.media.volume
    && r.view.volumeSlider == s.view.volumeSlider
    && r.view.action == s.view.action
    && r.view.volumeIcon == s.view.volumeIcon
    && r.view.loopActive == s.view.loopActive
    && r.view.rows == s.view.rows
  }

  /** The settings a transport handler never touches: volume, mute and loop,
      the controls that show them, and how many tracks and rows there are. */
  predicate SameSettings(s: Session, r: Session) {
    && |r.tracks| == |s.tracks|
    && |r.view.rows| == |s.view.rows|
    && r.media.volume == s.media.volume
    && r.media.muted == s.media.muted
    && r.media.loop == s.media.loop
    && r.view.volumeSlider == s.view.volumeSlider
    && r.view.loopActive == s.view.loopActive
  }

  /** `audio.play()`. */
  function Play(s: Session): (r: Session)
    ensures !r.media.paused
    ensures r == s.(media := r.media) && r.media == s.media.(paused := false)
  {
    s.(media := s.media.(paused := false))
  }

  /** `audio.pause()`. */
  function Pause(s: Session): (r: Session)
    ensures r.media.paused
    ensures r == s.(media := r.media) && r.media == s.media.(paused := true)
  {
    s.(media := s.media.(paused := true))
  }

  /** `pressPlay` (`playOrPause("play")`); the Lit copy's `_pressPlay` pauses
      instead and leaves the glyph to the button component. Either way the
      override flag is negated. */
  function PressPlay(v: Variant, s: Session): (r: Session)
    ensures r.audioOverride == !s.audioOverride
    ensures v.pressPlayStarts ==> !r.media.paused && r.view.action == PauseGlyph
    ensures !v.pressPlayStarts ==> r.media.paused && r.view.action == s.view.action
    ensures r == s.(media := s.media.(paused := r.media.paused),
                    view := s.view.(action := r.view.action), audioOverride := r.audioOverride)
    ensures SameSettings(s, r)
  {
    if v.pressPlayStarts then
      var p := Play(s);
      p.(view := p.view.(action := PauseGlyph), audioOverride := !s.audioOverride)
    else
      Pause(s).(audioOverride := !s.audioOverride)
  }

  /** `pressPause` (`playOrPause("pause")`): pause, show the play glyph, negate the override. */
  function PressPause(s: Session): (r: Session)
    ensures r.media.paused && r.view.action == PlayGlyph
    ensures r.audioOverride == !s.audioOverride
    ensures r == s.(media := s.media.(paused := true),
                    view := s.view.(action := PlayGlyph), audioOverride := r.audioOverride)
    ensures SameSettings(s, r)
  {
    var p := Pause(s);
    p.(view := p.view.(action := PlayGlyph), audioOverride := !s.audioOverride)
  }

  /** `loadCurrentTime(time)`: nothing without a source; otherwise the elapsed-time
      text shows `time` (the class-based copy shows `audio.currentTime` instead).
      A `time` of `None` is NaN, computed from a duration that is not known yet. */
  function LoadCurrentTime(v: Variant, s: Session, time: Option<Seconds>): (r: Session)
    ensures s.media.src == "" ==> r == s
    ensures s.media.src != "" ==> r == s.(view := s.view.(currentTime := r.view.currentTime))
    ensures s.media.src != "" && v.previewShown && time.None? ==> r.view.currentTime == NaNText
    ensures s.media.src != "" && (!v.previewShown || time.Some?) ==>
      var shown := if v.previewShown then time.value else s.media.position;
      && IsClockText(r.view.currentTime)
      && ParseClock(r.view.currentTime) == Some((Minutes(shown), SecondsPart(shown)))
    ensures SameSettings(s, r)
  {
    if s.media.src == "" then s
    else if v.previewShown && time.None? then s.(view := s.view.(currentTime := NaNText))
    else
      var shown := if v.previewShown then time.value else s.media.position;
      ClockRoundTrip(shown);
      s.(view := s.view.(currentTime := TimeToString(shown)))
  }

  /** `r` has track `index` of `s` freshly loaded: it is selected, the source
      points at its file, the position and the seek slider are at 0, and,
      since assigning `src` restarts the element's load, the duration is
      unknown until the next `loadedmetadata`. */
  predicate Loaded(s: Session, r: Session, index: nat) {
    && index < |s.tracks| && r.current == Some(index)
    && r.media.src == s.tracks[index].file
    && r.media.position == 0.0 && r.view.seeker == 0.0
    && r.media.duration.None?
  }

  /** `r` shows track `index` of `s`: its artist, title, album and artwork
      with the copy's fallbacks, and "00:00" where the copy refreshes the
      elapsed time of a track with a file. The list, the placeholder, the
      rows, the speaker icon and the duration text stay as they were. */
  predicate Shows(v: Variant, s: Session, r: Session, index: nat) {
    && index < |s.tracks|
    && r.tracks == s.tracks && r.placeholder == s.placeholder
    && r.view.artist == ShownField(v.metadataFallback, s.tracks[index].artist)
    && r.view.title == ShownTitle(v, s.tracks[index].title)
    && r.view.album == ShownField(v.metadataFallback, s.tracks[index].album)
    && r.view.artwork == ShownArtwork(v.artworkFallback, s.tracks[index].artwork, s.placeholder)
    && r.view.currentTime ==
         (if v.loadShowsTime && s.tracks[index].file != "" then "00:00" else s.view.currentTime)
    && r.view.duration == s.view.duration
    && r.view.volumeIcon == s.view.volumeIcon
    && r.view.rows == s.view.rows
  }

  /** The title a copy shows: the getter's value, or nothing where the
      template reads a property that does not exist. */
  function ShownTitle(v: Variant, title: string): (shown: string)
    ensures v.titleShown ==> shown == ShownField(v.metadataFallback, title)
    ensures !v.titleShown ==> shown == ""
  {
    if v.titleShown then ShownField(v.metadataFallback, title) else ""
  }

  /** The assignments `loadTrack` makes before refreshing the time: select
      the track, zero the seek slider and the position, point the source at
      its file and show its metadata. */
  function ShowTrack(v: Variant, s: Session, index: nat): (r: Session)
    requires index < |s.tracks|
    ensures SameControls(s, r) && Loaded(s, r, index)
    ensures r.view.artist == ShownField(v.metadataFallback, s.tracks[index].artist)
    ensures r.view.title == ShownTitle(v, s.tracks[index].title)
    ensures r.view.album == ShownField(v.metadataFallback, s.tracks[index].album)
    ensures r.view.artwork == ShownArtwork(v.artworkFallback, s.tracks[index].artwork, s.placeholder)
  {
    var t := s.tracks[index];
    s.(
      current := Some(index),
      media := s.media.(position := 0.0, src := t.file, duration := None),
      view := s.view.(
        seeker := 0.0,
        artist := ShownField(v.metadataFallback, t.artist),
        title := ShownTitle(v, t.title),
        album := ShownField(v.metadataFallback, t.album),
        artwork := ShownArtwork(v.artworkFallback, t.artwork, s.placeholder)))
  }

  /** `loadTrack(index)`: throws when there is no track at `index`; otherwise
      selects it, zeroes the seek slider and the position, points the source at
      its file, shows its metadata and leaves every other control alone. */
  function LoadTrack(v: Variant, s: Session, index: nat): (r: Result<Session>)
    ensures r.Ok? <==> index < |s.tracks|
    ensures r.Ok? ==> SameControls(s, r.value) && Loaded(s, r.value, index)
    ensures r.Ok? ==> r.value.view.artist == ShownField(v.metadataFallback, s.tracks[index].artist)
    ensures r.Ok? ==> r.value.view.title == ShownTitle(v, s.tracks[index].title)
    ensures r.Ok? ==> r.value.view.album == ShownField(v.metadataFallback, s.tracks[index].album)
    ensures r.Ok? ==>
      r.value.view.artwork == ShownArtwork(v.artworkFallback, s.tracks[index].artwork, s.placeholder)
    ensures r.Ok? && v.loadShowsTime && s.tracks[index].file != "" ==> r.value.view.currentTime == "00:00"
    ensures r.Ok? ==> Shows(v, s, r.value, index) && SameSettings(s, r.value)
  {
    if index >= |s.tracks| then Err(MissingTrack)
    else
      var loaded := ShowTrack(v, s, index);
      ZeroShowsZero();
      Ok(if v.loadShowsTime then LoadCurrentTime(v, loaded, Some(0.0)) else loaded)
  }

  /** The clock text of position 0. */
  lemma ZeroShowsZero()
    ensures TimeToString(0.0) == "00:00"
  {
    assert Minutes(0.0) == 0 && SecondsPart(0.0) == 0;
    assert Digits(0) == "0";
    assert Pad2(0) == "00" by {
      var p := Pad2(0);
      assert p == p[..1] + p[1..];
    }
  }

  /** The playing branch of `previousTrack`/`nextTrack`: load `index`, then
      `play()` again only if the element was playing. */
  function LoadKeepingPlayState(v: Variant, s: Session, index: nat): (r: Result<Session>)
    ensures r.Ok? <==> index < |s.tracks|
    ensures r.Ok? ==> Loaded(s, r.value, index) && r.value.media.paused == s.media.paused
    ensures r.Ok? ==> r.value.audioOverride == s.audioOverride && r.value.tracks == s.tracks
    ensures r.Ok? ==> Shows(v, s, r.value, index) && r.value.view.action == s.view.action
    ensures r.Ok? ==> SameSettings(s, r.value)
  {
    var loaded :- LoadTrack(v, s, index);
    Ok(if !s.media.paused then Play(loaded) else loaded)
  }

  /** The boundary branch of `previousTrack`/`nextTrack`: `pressPause`, load
      `index`, then clear the override. */
  function StopAndLoad(v: Variant, s: Session, index: nat): (r: Result<Session>)
    ensures r.Ok? <==> index < |s.tracks|
    ensures r.Ok? ==> Loaded(s, r.value, index) && r.value.media.paused
    ensures r.Ok? ==> !r.value.audioOverride && r.value.view.action == PlayGlyph
    ensures r.Ok? ==> r.value.tracks == s.tracks && Shows(v, s, r.value, index)
    ensures r.Ok? ==> SameSettings(s, r.value)
  {
    var loaded :- LoadTrack(v, PressPause(s), index);
    Ok(loaded.(audioOverride := false))
  }

  /** `previousTrack`: declines with nothing selected; otherwise moves back one
      track keeping the play state, and at the first track pauses and replays
      it from the start instead of wrapping. */
  function Previous(v: Variant, s: Session): (r: Result<Session>)
    ensures s.current.None? ==> r == Ok(s)
    ensures s.current.Some? && s.current.value >= 1 ==>
      && (r.Ok? <==> s.current.value - 1 < |s.tracks|)
      && (r.Ok? ==> Loaded(s, r.value, s.current.value - 1)
                    && Shows(v, s, r.value, s.current.value - 1)
                    && r.value.media.paused == s.media.paused
                    && r.value.audioOverride == s.audioOverride
                    && r.value.view.action == s.view.action)
    ensures s.current == Some(0) ==>
      && (r.Ok? <==> 0 < |s.tracks|)
      && (r.Ok? ==> Loaded(s, r.value, 0) && Shows(v, s, r.value, 0)
                    && r.value.media.paused && !r.value.audioOverride
                    && r.value.view.action == PlayGlyph)
    ensures r.Ok? ==> r.value.tracks == s.tracks
    ensures r.Ok? ==> SameSettings(s, r.value)
  {
    match s.current
    case None => Ok(s)
    case Some(c) =>
      if c >= 1 then LoadKeepingPlayState(v, s, c - 1)
      else StopAndLoad(v, s, c)
  }

  /** `nextTrack`: with nothing selected loads the first track without playing;
      otherwise moves on one track keeping the play state; after the last track
      pauses and wraps to the first with the override cleared. */
  function Next(v: Variant, s: Session): (r: Result<Session>)
    ensures r.Ok? <==> 0 < |s.tracks|
    ensures r.Ok? ==> r.value.tracks == s.tracks
    ensures r.Ok? && s.current.None? ==>
      && Loaded(s, r.value, 0) && Shows(v, s, r.value, 0)
      && r.value.media.paused == s.media.paused && r.value.audioOverride == s.audioOverride
      && r.value.view.action == s.view.action
    ensures r.Ok? && s.current.Some? && s.current.value + 1 < |s.tracks| ==>
      && Loaded(s, r.value, s.current.value + 1) && Shows(v, s, r.value, s.current.value + 1)
      && r.value.media.paused == s.media.paused && r.value.audioOverride == s.audioOverride
      && r.value.view.action == s.view.action
    ensures r.Ok? && s.current.Some? && s.current.value + 1 >= |s.tracks| ==>
      && Loaded(s, r.value, 0) && Shows(v, s, r.value, 0)
      && r.value.media.paused && !r.value.audioOverride && r.value.view.action == PlayGlyph
    ensures r.Ok? ==> SameSettings(s, r.value)
  {
    match s.current
    case None => LoadTrack(v, s, 0)
    case Some(c) =>
      if c + 1 < |s.tracks| then LoadKeepingPlayState(v, s, c + 1)
      else StopAndLoad(v, s, 0)
  }

  /** True when the selected track is the last one in the list. */
  predicate OnLastTrack(s: Session) {
    s.current.Some? && s.current.value + 1 == |s.tracks|
  }

  /** The `ended` handler: nothing while looping; on the last track only
      `nextTrack`, so playback stops on the first track; otherwise `nextTrack`
      and then `play()`. */
  function Ended(v: Variant, s: Session): (r: Result<Session>)
    ensures s.media.loop ==> r == Ok(s)
    ensures !s.media.loop && OnLastTrack(s) ==>
      r.Ok? && Loaded(s, r.value, 0) && r.value.media.paused && !r.value.audioOverride
    ensures !s.media.loop && !OnLastTrack(s) ==>
      && (r.Ok? <==> 0 < |s.tracks|)
      && (r.Ok? ==> !r.value.media.paused)
      && (r.Ok? && s.current.None? ==> Loaded(s, r.value, 0))
      && (r.Ok? && s.current.Some? && s.current.value + 1 < |s.tracks| ==>
            Loaded(s, r.value, s.current.value + 1))
    ensures !s.media.loop && r.Ok? ==>
      var i := if s.current.Some? && s.current.value + 1 < |s.tracks| then s.current.value + 1 else 0;
      Loaded(s, r.value, i) && Shows(v, s, r.value, i)
    ensures r.Ok? ==> SameSettings(s, r.value)
  {
    if s.media.loop then Ok(s)
    else if OnLastTrack(s) then Next(v, s)
    else
      var moved :- Next(v, s);
      Ok(Play(moved))
  }

  /** The action button: with nothing selected loads the first track and
      presses play; otherwise presses play when paused and pause when playing. */
  function ActionClick(v: Variant, s: Session): (r: Result<Session>)
    ensures s.current.None? ==> (r.Ok? <==> 0 < |s.tracks|)
    ensures s.current.None? && r.Ok? ==>
      && Loaded(s, r.value, 0) && Shows(v, s, r.value, 0) && r.value.audioOverride == !s.audioOverride
      && (v.pressPlayStarts ==> !r.value.media.paused && r.value.view.action == PauseGlyph)
      && (!v.pressPlayStarts ==> r.value.media.paused && r.value.view.action == s.view.action)
    ensures s.current.Some? && s.media.paused ==> r == Ok(PressPlay(v, s))
    ensures s.current.Some? && !s.media.paused ==> r == Ok(PressPause(s))
    ensures s.current.Some? && !s.media.paused ==>
      && r.Ok? && r.value.media.paused && r.value.view.action == PlayGlyph
      && r.value.current == s.current && r.value.audioOverride == !s.audioOverride
    ensures r.Ok? ==> SameSettings(s, r.value)
  {
    match s.current
    case None =>
      var loaded :- LoadTrack(v, s, 0);
      Ok(PressPlay(v, loaded))
    case Some(_) =>
      if s.media.paused then Ok(PressPlay(v, s)) else Ok(PressPause(s))
  }

  /** Whether a song click takes the "nothing selected" branch: `=== undefined`
      in most copies, `!this.currentTrack` in the Lit copy, where index 0 counts
      as nothing selected too. */
  predicate NoSelection(v: Variant, s: Session) {
    if v.strictSelection then s.current.None? else s.current.None? || s.current == Some(0)
  }

  /** A click on row `index`: with nothing selected loads it and presses play;
      when paused only loads it; when playing loads it and keeps playing. */
  function SongClick(v: Variant, s: Session, index: nat): (r: Result<Session>)
    ensures r.Ok? <==> index < |s.tracks|
    ensures r.Ok? ==> Loaded(s, r.value, index) && Shows(v, s, r.value, index)
    ensures r.Ok? && NoSelection(v, s) ==>
      && r.value.audioOverride == !s.audioOverride
      && (v.pressPlayStarts ==> !r.value.media.paused && r.value.view.action == PauseGlyph)
      && (!v.pressPlayStarts ==> r.value.media.paused && r.value.view.action == s.view.action)
    ensures r.Ok? && !NoSelection(v, s) ==>
      && r.value.audioOverride == s.audioOverride && r.value.media.paused == s.media.paused
      && r.value.view.action == s.view.action
    ensures r.Ok? ==> SameSettings(s, r.value)
  {
    var loaded :- LoadTrack(v, s, index);
    var r := if NoSelection(v, s) then PressPlay(v, loaded)
             else if s.media.paused then loaded
             else Play(loaded);
    PlayStateKeepsLoad(v, s, loaded, r, index);
    Ok(r)
  }

  /** Playing, pausing and the override leave a freshly loaded track loaded and shown. */
  lemma PlayStateKeepsLoad(v: Variant, s: Session, a: Session, b: Session, index: nat)
    requires Loaded(s, a, index) && Shows(v, s, a, index) && SameSettings(s, a)
    requires b == a.(media := a.media.(paused := b.media.paused),
                     view := a.view.(action := b.view.action), audioOverride := b.audioOverride)
    ensures Loaded(s, b, index) && Shows(v, s, b, index) && SameSettings(s, b)
  {
  }

  /** The position a seek-slider value stands for: `value * duration / 100`,
      which is NaN (`None`) while the duration is. */
  function SeekTarget(s: Session): (t: Option<Seconds>)
    ensures t.Some? <==> s.media.duration.Some?
    ensures t.Some? && s.view.seeker <= 100.0 ==> t.value <= s.media.duration.value
  {
    match s.media.duration
    case None => None
    case Some(d) =>
      var x := s.view.seeker;
      assert x * d / 100.0 == d - (100.0 - x) * d / 100.0;
      assert x <= 100.0 ==> (100.0 - x) * d >= 0.0;
      Some(x * d / 100.0)
  }

  /** The seek slider's `change` (release): declines with nothing selected;
      throws while the duration is unknown, since the element refuses a NaN
      `currentTime`; otherwise commits the position and resumes only when the
      override is set. */
  function SeekerChange(v: Variant, s: Session): (r: Result<Session>)
    ensures s.current.None? ==> r == Ok(s)
    ensures s.current.Some? && s.media.duration.None? ==> r == Err(NonFiniteTime)
    ensures s.current.Some? && s.media.duration.Some? ==>
      && r.Ok?
      && r.value.media.position == SeekTarget(s).value
      && r.value.media.paused == (s.media.paused && !s.audioOverride)
      && r.value.current == s.current && r.value.audioOverride == s.audioOverride
      && r.value.view == s.view
    ensures s.current.Some? && s.media.duration.Some? ==>
      r == Ok(s.(media := s.media.(position := SeekTarget(s).value, paused := r.value.media.paused)))
    ensures r.Ok? ==> SameSettings(s, r.value)
  {
    if s.current.None? then Ok(s)
    else match SeekTarget(s)
      case None => Err(NonFiniteTime)
      case Some(t) =>
        var committed := s.(media := s.media.(position := t));
        Ok(if s.audioOverride then Play(committed) else committed)
  }

  /** The seek slider's `input` (drag): declines with nothing selected; otherwise
      pauses and shows the dragged-to time, leaving the position uncommitted.
      While the duration is unknown that time is NaN, and a copy that shows it
      prints "NaN:NaN". */
  function SeekerInput(v: Variant, s: Session): (r: Session)
    ensures s.current.None? ==> r == s
    ensures s.current.Some? ==>
      && r.media.paused
      && r.media.position == s.media.position
      && r.current == s.current && r.audioOverride == s.audioOverride
      && (s.media.src != "" && v.previewShown && s.media.duration.None? ==>
            r.view.currentTime == NaNText)
      && (s.media.src != "" && v.previewShown && s.media.duration.Some? ==>
            r.view.currentTime == TimeToString(SeekTarget(s).value))
      && (s.media.src != "" && !v.previewShown ==>
            r.view.currentTime == TimeToString(s.media.position))
      && (s.media.src == "" ==> r.view.currentTime == s.view.currentTime)
    ensures s.current.Some? ==>
      r == s.(media := s.media.(paused := true), view := s.view.(currentTime := r.view.currentTime))
    ensures SameSettings(s, r)
  {
    if s.current.None? then s
    else LoadCurrentTime(v, Pause(s), SeekTarget(s))
  }

  /** `toggleVolume`: muting shows the off speaker and drops the slider to 0;
      unmuting restores the slider to the unchanged volume and re-picks the icon. */
  function ToggleVolume(s: Session): (r: Session)
    ensures r.media.muted == !s.media.muted
    ensures r.media.volume == s.media.volume
    ensures !s.media.muted ==> r.view.volumeSlider == 0.0 && r.view.volumeIcon == Off
    ensures s.media.muted ==>
      r.view.volumeSlider == s.media.volume && r.view.volumeIcon == SetVolumeIcon(s.media.volume, false)
    ensures r.current == s.current && r.tracks == s.tracks && r.media.paused == s.media.paused
    ensures r == s.(media := s.media.(muted := r.media.muted),
                    view := s.view.(volumeIcon := r.view.volumeIcon, volumeSlider := r.view.volumeSlider))
  {
    if !s.media.muted then
      s.(media := s.media.(muted := true), view := s.view.(volumeIcon := Off, volumeSlider := 0.0))
    else
      s.(media := s.media.(muted := false),
         view := s.view.(volumeIcon := SetVolumeIcon(s.media.volume, false), volumeSlider := s.media.volume))
  }

  /** The volume slider's `input`: the element takes the slider's value. */
  function VolumeInput(s: Session): (r: Session)
    ensures r.media.volume == s.view.volumeSlider && r.view == s.view
    ensures r.media.muted == s.media.muted
    ensures r == s.(media := s.media.(volume := r.media.volume))
  {
    s.(media := s.media.(volume := s.view.volumeSlider))
  }

  /** `volumechange`: re-pick the speaker icon from the element's volume and mute. */
  function VolumeChange(s: Session): (r: Session)
    ensures r.view.volumeIcon == SetVolumeIcon(s.media.volume, s.media.muted)
    ensures r.media == s.media
    ensures r == s.(view := s.view.(volumeIcon := r.view.volumeIcon))
    ensures SameSettings(s, r)
  {
    s.(view := s.view.(volumeIcon := SetVolumeIcon(s.media.volume, s.media.muted)))
  }

  /** `toggleLoop`: negate the element's loop flag and toggle the button's class. */
  function ToggleLoop(s: Session): (r: Session)
    ensures r.media.loop == !s.media.loop && r.view.loopActive == !s.view.loopActive
    ensures r.media.paused == s.media.paused && r.current == s.current
    ensures r == s.(media := s.media.(loop := r.media.loop), view := s.view.(loopActive := r.view.loopActive))
  {
    s.(media := s.media.(loop := !s.media.loop), view := s.view.(loopActive := !s.view.loopActive))
  }

  /** `loadedmetadata`: the element reports the duration, shown as `MM:SS`. */
  function LoadedMetadata(s: Session, duration: Seconds): (r: Session)
    ensures r.media.duration == Some(duration)
    ensures ParseClock(r.view.duration) == Some((Minutes(duration), SecondsPart(duration)))
    ensures r.current == s.current && r.media.paused == s.media.paused
    ensures r == s.(media := s.media.(duration := r.media.duration), view := s.view.(duration := r.view.duration))
    ensures SameSettings(s, r)
  {
    ClockRoundTrip(duration);
    s.(media := s.media.(duration := Some(duration)), view := s.view.(duration := TimeToString(duration)))
  }

  /** The shuffle button: shuffle the list in place, re-render the rows (none
      highlighted), then load the first track, resuming only if it was playing. */
  function ShuffleClick(v: Variant, s: Session, draw: nat -> Unit): (r: Result<Session>)
    ensures r.Ok? <==> 0 < |s.tracks|
    ensures r.Ok? ==> r.value.tracks == FisherYates(s.tracks, draw)
    ensures r.Ok? ==> |r.value.tracks| == |s.tracks| && multiset(r.value.tracks) == multiset(s.tracks)
    ensures r.Ok? ==> r.value.current == Some(0) && r.value.media.src == r.value.tracks[0].file
    ensures r.Ok? ==> r.value.media.position == 0.0 && r.value.media.duration.None?
    ensures r.Ok? ==> r.value.media.paused == s.media.paused && r.value.audioOverride == s.audioOverride
    ensures r.Ok? ==> |r.value.view.rows| == |s.tracks| && forall k :: 0 <= k < |s.tracks| ==> !r.value.view.rows[k]
    ensures r.Ok? ==>
      var rendered := s.(tracks := r.value.tracks, view := s.view.(rows := r.value.view.rows));
      && Loaded(rendered, r.value, 0) && Shows(v, rendered, r.value, 0)
      && r.value.view.action == s.view.action
    ensures r.Ok? ==>
      && r.value.media.volume == s.media.volume && r.value.media.muted == s.media.muted
      && r.value.media.loop == s.media.loop && r.value.view.volumeSlider == s.view.volumeSlider
      && r.value.view.loopActive == s.view.loopActive
  {
    var shuffled := FisherYates(s.tracks, draw);
    FisherYatesPermutes(s.tracks, draw);
    var rendered := s.(tracks := shuffled, view := s.view.(rows := seq(|shuffled|, _ => false)));
    LoadKeepingPlayState(v, rendered, 0)
  }

  /** Index of the first track whose file is `file`: the row `querySelector` finds. */
  function FirstWithFile(tracks: seq<Track>, file: string): (r: Option<nat>)
    ensures r.Some? ==> r.value < |tracks| && tracks[r.value].file == file
    ensures r.Some? ==> forall k :: 0 <= k < r.value ==> tracks[k].file != file
    ensures r.None? ==> forall k :: 0 <= k < |tracks| ==> tracks[k].file != file
  {
    if |tracks| == 0 then None
    else if tracks[0].file == file then Some(0)
    else match FirstWithFile(tracks[1..], file)
      case None => None
      case Some(k) => Some(k + 1)
  }

  /** Index of the first highlighted row: the row `querySelector(".song--active")` finds. */
  function FirstActive(rows: seq<bool>): (r: Option<nat>)
    ensures r.Some? ==> r.value < |rows| && rows[r.value]
    ensures r.Some? ==> forall k :: 0 <= k < r.value ==> !rows[k]
    ensures r.None? ==> forall k :: 0 <= k < |rows| ==> !rows[k]
  {
    if |rows| == 0 then None
    else if rows[0] then Some(0)
    else match FirstActive(rows[1..])
      case None => None
      case Some(k) => Some(k + 1)
  }

  /** The row `loadstart` highlights, or the fault it throws looking for it. */
  function HighlightRow(v: Variant, s: Session): (r: Result<nat>)
    requires v.highlight != NoHighlight
    ensures r.Ok? ==> r.value < |s.view.rows|
    ensures r.Ok? && v.highlight == ByIndex ==> s.current == Some(r.value)
    ensures r.Ok? && v.highlight == ByFile ==>
      && s.current.Some? && s.current.value < |s.tracks|
      && r.value < |s.tracks| && r.value <= s.current.value
      && s.tracks[r.value].file == s.tracks[s.current.value].file
      && forall k :: 0 <= k < r.value ==> s.tracks[k].file != s.tracks[r.value].file
    ensures v.highlight == ByIndex ==> (r.Ok? <==> s.current.Some? && s.current.value < |s.view.rows|)
  {
    match s.current
    case None => if v.highlight == ByIndex then Err(MissingRow) else Err(MissingTrack)
    case Some(c) =>
      if v.highlight == ByIndex then
        if c < |s.view.rows| then Ok(c) else Err(MissingRow)
      else if c >= |s.tracks| then Err(MissingTrack)
      else match FirstWithFile(s.tracks, s.tracks[c].file)
        case None => Err(MissingRow)
        case Some(k) => if k < |s.view.rows| then Ok(k) else Err(MissingRow)
  }

  /** `loadstart`: add the active class to the selected track's row. */
  function LoadStart(v: Variant, s: Session): (r: Result<Session>)
    ensures v.highlight == NoHighlight ==> r == Ok(s)
    ensures v.highlight != NoHighlight && r.Ok? ==>
      && HighlightRow(v, s).Ok?
      && r.value == s.(view := s.view.(rows := s.view.rows[HighlightRow(v, s).value := true]))
    ensures v.highlight != NoHighlight ==> (r.Ok? <==> HighlightRow(v, s).Ok?)
    ensures r.Ok? ==> SameSettings(s, r.value)
  {
    if v.highlight == NoHighlight then Ok(s)
    else
      var k :- HighlightRow(v, s);
      Ok(s.(view := s.view.(rows := s.view.rows[k := true])))
  }

  /** `emptied`: remove the active class from the first highlighted row; with
      none highlighted the guarded copy does nothing and the others throw. */
  function Emptied(v: Variant, s: Session): (r: Result<Session>)
    ensures v.emptied == Ignored ==> r == Ok(s)
    ensures v.emptied != Ignored && FirstActive(s.view.rows).Some? ==>
      r == Ok(s.(view := s.view.(rows := s.view.rows[FirstActive(s.view.rows).value := false])))
    ensures v.emptied == Guarded && FirstActive(s.view.rows).None? ==> r == Ok(s)
    ensures v.emptied == Unguarded ==> (r.Ok? <==> exists k :: 0 <= k < |s.view.rows| && s.view.rows[k])
    ensures r.Ok? ==> SameSettings(s, r.value)
  {
    match v.emptied
    case Ignored => Ok(s)
    case Guarded =>
      (match FirstActive(s.view.rows)
       case None => Ok(s)
       case Some(k) => Ok(s.(view := s.view.(rows := s.view.rows[k := false]))))
    case Unguarded =>
      match FirstActive(s.view.rows)
      case None => Err(MissingRow)
      case Some(k) => Ok(s.(view := s.view.(rows := s.view.rows[k := false])))
  }
}

=== FILE: wrappers.dfy ===
/** Failure-compatible wrappers used by the player model.

    JavaScript's `undefined` selection becomes `None`; the TypeErrors the
    handlers throw when they index past the track list, query a row that is
    not in the document or seek to a time that is not a number become a
    `Fault` carried by `Err`.
 */
module Wrappers {

  /** An optional value; `None` stands for JavaScript's `undefined`. */
  datatype Option<+T> = None | Some(value: T)

  /** Why a handler threw instead of finishing. */
  datatype Fault =
    | MissingTrack  // `tracks[index]` was undefined, so reading `.file` threw
    | MissingRow    // `querySelector` found no matching row, so `.classList` threw
    | NonFiniteTime // `currentTime` was assigned NaN, the product of an unknown duration

  /** The outcome of a handler: the new state, or the fault it threw. */
  datatype Result<+T> = Ok(value: T) | Err(fault: Fault) {

    predicate IsFailure() {
      Err?
    }

    function PropagateFailure<U>(): Result<U>
      requires Err?
    {
      Err(fault)
    }

    function Extract(): T
      requires Ok?
    {
      value
    }
  }
}
